=== FILE: README.md ===
# pushbaby: a Dafny model of the push connection, the truncator and the feedback reader

pushbaby is a client library for Apple's legacy binary push gateway. This
project models three parts of it as pure Dafny functions over immutable data:

- **the truncator** (`truncate`). While the JSON body of a push is longer than
  2048 octets, it drops the last code point of the longest "choppable" text.
  The choppable texts are the alert string, `alert.body` and each
  `alert.loc-args` entry. Length is measured in UTF-8 octets, and the earliest
  field wins a tie. When every choppable text is empty and the body still does
  not fit, it raises `BodyTooLongException`.
- **the push connection** (`PushConnection`):
  - `send` takes the next sequence number. Reaching 2^31 retires the
    connection. `send` then truncates the payload, builds the binary frame
    (command 2, a 32-bit length and `id | u16 length | data` items) and
    records the push in the sent-message ledger.
  - `pruneSent` forgets ledger entries older than 60 s and entries below the
    last failed sequence number.
  - The reader loop reads a six-octet error report. It retires a connection
    idle for more than 30 s and closes one that is retired and idle for more
    than 60 s.
  - `_push_failed` handles a report. It resends the failed push when the
    status is 10 (shutdown) and otherwise calls `on_push_failed`. Then it
    resends every later push still in the ledger.
- **the feedback reader** (`FeedbackConnection.get_all`) parses the stream of
  `timestamp:u32 | length:u16 | token` records. It drops a record that the
  end of the stream cuts short. It then decides, from the way the stream
  ended, whether to return the records read so far or to raise.

The model replaces I/O with parameters:

- The JSON serialiser is a function parameter `serialize: Payload -> bytes`.
- The clock is a natural number `now`.
- Whether a socket write completes is a boolean.
- What `recv` returned is a `Recv` value.
- The order in which Python iterates the ledger dictionary is a sequence of
  keys.

Modules, one file each:

- `Results`: `Option` and `Result`.
- `Bytes`: big-endian `u16` and `u32`.
- `Utf8`: code points and UTF-8.
- `Aps`: the payload and its choppable fields.
- `Truncation`.
- `Frames`: wire formats and status codes.
- `Ledger`: `SentMessage` and `pruneSent`.
- `Connection`.
- `Feedback`.

### Behaviour kept as written

The model reproduces these behaviours of the code as written. It does not
correct them:

- **Unknown command.** A report whose command octet is not 8 closes the
  connection. The report is still passed to `_push_failed`, so the callback
  may fire or pushes may be resent (`Connection.HandleReport`,
  `Connection.UnknownCommandStillResolves`).
- **Double deletion.** `pruneSent` deletes an entry that is both older than
  60 s and below the failed sequence number twice. The second `del` raises
  `KeyError`, which ends the reader. The model returns a `KeyError` that carries
  the ledger as the earlier deletions left it (`Ledger.PruneSent`,
  `Ledger.PruneDoubleDelete`). When this happens inside `_push_failed`,
  `last_failed_seq` is already set, but the connection is not yet retired. It
  stays alive and useable, `send` keeps writing on it, and no reader is left to
  hear of failures (`Connection.PushFailed`,
  `Connection.HaltedConnectionStillSends`).
- **Swapped resend arguments.** Resends call `send(payload, token, priority,
  expiration, identifier)` against the signature `send(payload, token,
  expiration, priority, identifier)`. Priority and expiration therefore trade
  places (`Connection.ResendOf`). A push written with priority 10 and
  expiration 1000 cannot be framed when resent
  (`Connection.SwappedResendUnframeable`).
- **Resent entries stay.** `_push_failed` deletes only the failed entry. The
  later entries it resends stay in the ledger and are resent in dictionary
  iteration order (`Connection.Resolve`).
- **Falsy zero.** An expiration or priority of 0 is falsy. It is left out of
  the frame (`Frames.BuildFrame`). A failed sequence number of 0 cuts nothing
  from the ledger (`Ledger.BelowCutoff`). A `last_push_sent` of 0 skips the
  idle checks (`Connection.IdleCheck`).

## Model

| member | source | states |
|---|---|---|
| Bytes.U16RoundTrip | pushbaby/pushconnection.py:235 | reading back a packed 16-bit length yields the length |
| Bytes.U32RoundTrip | pushbaby/pushconnection.py:218-229 | reading back a packed 32-bit identifier or expiration yields the number |
| Bytes.ReadU32Inverse | pushbaby/pushconnection.py:134 | every four octets are the big-endian packing of the number they unpack to |
| Bytes.ReadU16Inverse | pushbaby/feedbackconnection.py:56 | every two octets are the big-endian packing of the length they unpack to |
| Utf8.EncodeChar | pushbaby/truncate.py:100 | one code point takes 1 to 4 octets, and every octet after the first is a continuation octet |
| Utf8.DecodeEncode | pushbaby/truncate.py:100 | the UTF-8 octets the truncator measures decode back to the text: the encoding loses nothing |
| Utf8.EncodeConcat | pushbaby/truncate.py:100 | the encoding of a concatenation is the concatenation of the encodings |
| Utf8.DropLastEncoding | pushbaby/truncate.py:54 | dropping the last code point removes exactly that code point's 1 to 4 trailing octets |
| Utf8.ByteLengthBounds | pushbaby/truncate.py:100-101 | a text's UTF-8 length is 0 exactly when the text is empty, and lies between its code-point count and four times that |
| Aps.Choppables | pushbaby/truncate.py:60-74 | the enumeration lists exactly the text fields that exist: the alert string, or the body and then every loc-arg, each once and in that order |
| Aps.Get | pushbaby/truncate.py:77-83 | reads the field a choppable names: the alert when it is a string, the alert dict's body, or the loc-args entry at its index |
| Aps.Put | pushbaby/truncate.py:86-92 | writing a field sets it and leaves every other choppable field, the set of choppable fields, the alert dict's other keys, whether it has a loc-args list (even an empty one) and the payload's other keys unchanged |
| Aps.PutGet | pushbaby/truncate.py:77-92 | writing back the text just read leaves the payload unchanged |
| Aps.PutPrefixShortened | pushbaby/truncate.py:54-55 | cutting one field to a prefix of its text gives a payload that differs only by shortened texts |
| Aps.ShortenedTransitive | pushbaby/truncate.py:46-55 | shortening twice is a shortening, so the whole loop only ever cuts texts to prefixes |
| Aps.Emptied | pushbaby/truncate.py:47-49 | the payload with every choppable text emptied is a shortening in which nothing is left to chop |
| Aps.ExhaustedIsEmptied | pushbaby/truncate.py:47-49 | a shortening with nothing left to chop is that emptied payload and no other |
| Aps.PutCodePointCount | pushbaby/truncate.py:54-55 | replacing one text changes the total code-point count by the difference in that text's length |
| Truncation.IsTooLong | pushbaby/truncate.py:24-31 | a payload is too long exactly when its serialised JSON exceeds the maximum length in octets |
| Truncation.ScanLongest | pushbaby/truncate.py:96-104 | the scan finds nothing exactly when every length is 0, and otherwise a positive maximum that no earlier entry reaches |
| Truncation.LongestChoppable | pushbaby/truncate.py:95-104 | the result is None exactly when every choppable text is empty; otherwise it is a non-empty field of maximal UTF-8 length, earliest among fields of that length |
| Truncation.Chop | pushbaby/truncate.py:51-55 | one step removes the last code point of the chosen field only, so the total code-point count drops by one |
| Truncation.Truncate | pushbaby/truncate.py:34-57 | on success the body fits and the texts are prefixes of the originals; a payload that fits comes back unchanged; BodyTooLong only when even the fully emptied payload does not fit |
| Truncation.TruncateIdempotent | pushbaby/truncate.py:46-57 | truncating a truncated payload changes nothing |
| Truncation.TruncateFailsIff | pushbaby/truncate.py:46-49 | for a serialiser that never grows when texts shrink, BodyTooLong is raised exactly when the emptied payload does not fit |
| Frames.PackItem | pushbaby/pushconnection.py:218-235 | identifier and expiration become four octets and priority one octet that read back as the number, other data passes through raw; the pack fails exactly when a value is out of range |
| Frames.ParseSerializeItems | tests/test_pushconnection.py:69-88 | the dummy gateway's item loop recovers exactly the items serialised |
| Frames.PackFields | pushbaby/pushconnection.py:195-202 | the items pack exactly when each field packs, each in its place |
| Frames.FrameFieldsPackable | pushbaby/pushconnection.py:194-202 | the fields of a send pack exactly when token and body fit 16 bits, the sequence number 32 bits, and a truthy expiration and priority their fields |
| Frames.BuildFrame | pushbaby/pushconnection.py:194-204 | a frame is built exactly when every field is in range; it starts with command 2 and its length field counts the items; the gateway's parser recovers token, body, identifier and the truthy expiration and priority |
| Frames.BuildFrameItems | pushbaby/pushconnection.py:195-204 | every in-range push is framed, and the frame's item block is exactly token, payload, the four-octet number, then the four-octet expiration and the one-octet priority only when truthy, in that order and with nothing repeated or added |
| Frames.FrameRoundTrip | tests/test_pushconnection.py:61-96 | the gateway's frame parser recovers every field of a frame `send` writes |
| Frames.DecodeErrorFrame | pushbaby/pushconnection.py:134 | any six octets decode to a command, a status and a 32-bit sequence number that encode back to those octets |
| Frames.ErrorFrameRoundTrip | tests/test_pushconnection.py:90-91 | the report the gateway sends decodes to its command, status and sequence number |
| Frames.StatusCodes | pushbaby/errors.py:16-26 | status codes and statuses correspond one to one, and only code 10 means shutdown |
| Ledger.PruneWalk | pushbaby/pushconnection.py:241-250 | the walk raises KeyError exactly when a visited entry is both expired and below the cutoff, naming such an entry; the ledger it leaves then lacks that key, keeps every entry that is not prunable, and holds nothing new; otherwise it removes exactly the visited entries that are expired or below the cutoff, and keeps the rest unchanged |
| Ledger.PruneSent | pushbaby/pushconnection.py:241-250 | a prune raises KeyError exactly when some entry is both older than 60 s and below a truthy failed sequence number; the ledger left then lies between the entries that are neither and the whole ledger, without the raising key; otherwise it keeps exactly the entries that are neither |
| Ledger.PruneDoubleDelete | pushbaby/pushconnection.py:245-250 | an entry written at time 0, a failure reported for sequence number 1 and a prune at time 61 raise KeyError for key 0 |
| Connection.Close | pushbaby/pushconnection.py:83-89 | closing clears both lifecycle flags and touches nothing else |
| Connection.Retire | pushbaby/pushconnection.py:91-93 | retiring refuses new pushes, keeps the connection alive for late reports and touches nothing else |
| Connection.NextSeq | pushbaby/pushconnection.py:237-239 | the sequence number advances by one and nothing else changes |
| Connection.NewConnectionInv | pushbaby/pushconnection.py:61-67 | a new connection is alive and useable, has an empty ledger, and will hand out 0 first |
| Connection.Body | pushbaby/pushconnection.py:194 | the body is produced exactly when truncation succeeds, and it is the serialised truncated payload of at most 2048 octets |
| Connection.Send | pushbaby/pushconnection.py:174-216 | a dead connection raises and changes nothing; otherwise the number advances even if the push is then refused; only reaching 2^31 changes the flags (it retires); a retired connection or one at 2^31 raises ConnectionDead; on a useable connection below 2^31 the rest of the send is exactly the write under the new number; the invariant is kept |
| Connection.SendRefused | pushbaby/pushconnection.py:185-216 | a refused send leaves the ledger and the last-push time as they were; on a useable connection below 2^31 each cause and its refusal imply each other: BodyTooLong exactly when truncation fails, PackFailed exactly when the frame under the next number does not pack, and WriteFailed, once the frame is built, exactly when the write fails |
| Connection.SendWrites | pushbaby/pushconnection.py:185-216 | a frame is written exactly when the connection is alive and useable, the next number is below 2^31, truncation succeeds, every field packs and the write completes; the octets written are the frame built under the next number, which parses back to the request; the ledger gains exactly that entry with the last-push time set |
| Connection.Transmit | pushbaby/pushconnection.py:194-216 | on a useable connection every refusal leaves the connection untouched; BodyTooLong exactly when truncation fails, PackFailed exactly when the frame does not pack, WriteFailed exactly when the frame is built and the write fails; the octets written are the frame built from token, truncated body, sequence number and truthy expiration and priority; the ledger gains exactly that entry; the invariant is kept |
| Connection.IdleCheck | pushbaby/pushconnection.py:122-131 | flags only go from true to false; nothing changes within 30 s of the last push or without one; beyond 60 s the connection is closed; between 30 s and 60 s it is retired but stays alive |
| Connection.ReadCycle | pushbaby/pushconnection.py:98-131 | each iteration prunes first; a KeyError there ends the reader, leaving the connection's flags as they were and its ledger exactly as the prune's KeyError left it; a peer close or a read error closes the connection; after a read timeout or received octets the idle checks run on the pruned connection; received octets are appended; sequence number and times are kept |
| Connection.ResendOf | pushbaby/pushconnection.py:158 | a resend carries the stored payload, token and identifier, with the stored priority as expiration and the stored expiration as priority |
| Connection.InOrder | pushbaby/pushconnection.py:169-170 | the resend order lists exactly the keys still in the ledger |
| Connection.InOrderAscending | pushbaby/pushconnection.py:169-170 | if the dictionary iterates keys in ascending order, the later pushes are resent in ascending order |
| Connection.InOrderNoDuplicates | pushbaby/pushconnection.py:169-170 | the resend loop visits each surviving entry once |
| Connection.Resends | pushbaby/pushconnection.py:169-170 | one resend per visited key, in visiting order, each the swapped resend of that entry |
| Connection.PushFailed | pushbaby/pushconnection.py:145-172 | KeyError exactly when the prune double-deletes, and then the failed number is recorded, the ledger is the one the prune's KeyError carries, and the connection is left alive and useable; otherwise the connection is retired and the failed number recorded; the ledger keeps exactly the entries that are not expired, not below the cutoff and not the failed one; an unremembered number fires nothing and resends nothing; shutdown resends the failed push first and fires no callback; any other status fires the callback if set; all later surviving pushes are resent in ledger order |
| Connection.Halted | pushbaby/pushconnection.py:145-147 | when the prune raises KeyError the failed number is already recorded, the flags, the number and the last-push time are unchanged, and the ledger and key are exactly those the prune's KeyError carries |
| Connection.Settle | pushbaby/pushconnection.py:145-172 | when the prune completes the connection is retired with the failed number recorded; the ledger keeps exactly the surviving entries; the callback and the resends follow the status and whether the failed number was remembered |
| Connection.Resolve | pushbaby/pushconnection.py:149-172 | after the prune: only the failed entry is deleted; shutdown resends it ahead of the rest; any other status calls back instead |
| Connection.HandleReport | pushbaby/pushconnection.py:133-142 | a report with command 8 keeps the connection alive; any other command closes it, and either way the report goes through the failure resolution |
| Connection.SendStep | pushbaby/pushconnection.py:185-216 | one send keeps the invariant, never lowers the number, loses no entry, and a written number is fresh and recorded |
| Connection.SendSeriesNumbers | pushbaby/pushconnection.py:185-216 | across any run of sends the written numbers strictly increase, lie above every earlier number and below 2^31, are all new ledger entries, and no entry is lost |
| Connection.PlainSend | pushbaby/pushconnection.py:180-216 | a fitting push without expiration or priority on a useable connection is written and recorded under the next number |
| Connection.ThreeSends | tests/test_pushconnection.py:119-127 | three plain pushes from a new connection get numbers 0, 1 and 2 and are recorded as requested |
| Connection.PruneFresh | pushbaby/pushconnection.py:241-250 | a prune at the moment every entry was written removes only the entries below the cutoff |
| Connection.RetryAfterShutdown | tests/test_pushconnection.py:119-141 | a shutdown report for the second of three pushes fires no callback and resends the second and third, in order and as requested |
| Connection.RetryResolution | pushbaby/pushconnection.py:153-170 | resolving shutdown for sequence number 1 resends entries 1 and 2 in order, and keeps only entry 2 in the ledger |
| Connection.FailureReported | tests/test_pushconnection.py:143-152 | status 8 for a push passes its token, identifier and status to the callback and resends nothing |
| Connection.UnknownCommandStillResolves | pushbaby/pushconnection.py:135-142 | a report with command 7 closes the connection and still fires the callback |
| Connection.HaltedConnectionStillSends | pushbaby/pushconnection.py:145-151 | after a KeyError in the prune of `_push_failed`, the connection is still alive and useable, and a plain push on it is written and recorded |
| Connection.SwappedResendUnframeable | pushbaby/pushconnection.py:158 | a push framed with priority 10 and expiration 1000 cannot be framed when resent |
| Feedback.Records | pushbaby/feedbackconnection.py:46-66 | the whole records at the front of the stream, in order; fewer than six octets give none, and each record takes at least six octets |
| Feedback.RecordsStep | pushbaby/feedbackconnection.py:47-66 | one whole record at the front of the stream is read back exactly and reading continues after it |
| Feedback.RecordsAppend | pushbaby/feedbackconnection.py:46-66 | a stream that starts with whole records yields those records, then whatever the rest yields |
| Feedback.RecordsRoundTrip | pushbaby/feedbackconnection.py:46-66 | the reader recovers every record of a stream made of whole records |
| Feedback.PartialRecordDropped | pushbaby/feedbackconnection.py:48-65 | a record cut short by the end of the stream, in its header or its token, yields nothing |
| Feedback.RecordsPrefix | pushbaby/feedbackconnection.py:46-66 | the records returned re-encode to exactly the octets they were read from, at the front of the stream |
| Feedback.CollectRecords | pushbaby/feedbackconnection.py:43-66 | the reading loop returns the parse of the whole stream |
| Feedback.GetAll | pushbaby/feedbackconnection.py:67-77 | a clean end or a reset returns the records; any other error raises exactly when no record was read |
| Feedback.GetAllWholeRecords | pushbaby/feedbackconnection.py:67-77 | once a whole record has arrived, get_all returns the records in full however the stream ends |

## Left out

- Sockets, TLS and gevent are left out. `open_connection`, `_open_connection`, `sock.close`, `gevent.spawn` and certificate handling are not modelled. Opening is assumed to succeed, and the write loop is reduced to a flag saying whether it completed.
- The facade `PushBaby` is not modelled: its `send`, its reconnect loop, its random choice of gateway address, and `messages_in_flight`. A resend is represented by the `SendRequest` handed back, not by a call into the facade.
- `pushbaby/aps.py` is a parameter. The JSON encoder becomes `serialize`. That file defines `json_for_payload`, while the truncator and the connection import `json_for_aps`. The model does not settle which wrapper the body gets.
- The conversion of byte strings to unicode in `truncate` (lines 40-43) is not modelled, because texts are code-point sequences from the start. Narrow Python builds, which can split surrogate pairs, are not modelled either.
- Utf8.Encode: Python 2's UTF-8 encoder joins a high surrogate followed by a low surrogate into one four-octet sequence. The model encodes each half in three octets. For a text containing such a pair, `ByteLength` is two octets longer than the length the truncator measures at `truncate.py:100`. `Utf8.EncodeConcat` and `Utf8.DropLastEncoding` describe the model's encoder, not Python's, on such texts. Texts without a surrogate pair are encoded as Python encodes them.
- Aps.AlertValue: a `body` that is not text, or a `loc-args` that is not a list of texts, cannot be represented. A `None` or other unsized `loc-args` raises `TypeError` at `truncate.py:72` on every call, because the decode loop at `truncate.py:40-43` enumerates the choppables first. Any other non-text `body` or loc-args entry is skipped by that loop's `isinstance(val, str)` test. A payload that fits is then returned unchanged. Only a payload that is too long reaches the `.encode` at `truncate.py:100`, inside the loop at `truncate.py:46-47`, and raises there. The model covers only alert dicts whose choppable fields hold text.
- `copy.copy` aliasing is not modelled. A shallow copy means `_choppable_put` on `alert.body` mutates the caller's dict. The model is pure, so the caller's payload never changes.
- Floating-point clock readings are replaced by whole seconds (`nat`). Float expirations are not modelled: `struct.pack("!I")` truncates them.
- `retired_at` is not modelled. It is written and never read.
- Logging is not modelled.
- Connection.ReadCycle: only the TLS read timeout is passed over, as the code does. A plain socket timeout counts as a read failure and closes the connection.
- Connection.ReadCycle: the outer loop that discards the partial buffer is not modelled as a separate member. Each inner iteration is modelled, and `HandleReport` takes over once six octets are in hand.
- Feedback.GetAll: the stream's end is given as a value, one of a clean end, a connection reset, or another socket or TLS error. In the Python 2.7 the code targets, a socket timeout is a socket error, so it takes the `OtherError` path, whatever the comment at lines 78-82 says.
- The timestamp of a feedback record is the unpacked 32-bit integer, not the Python float it is converted to.
- `pushbaby/feedback.py` is not part of this model.

=== FILE: aps.dfy ===
/** The `aps` dictionary of a push as the truncator sees it: an optional `alert`
    (a string, a dictionary with an optional `body` and optional `loc-args` list,
    or some other JSON value) and the remaining keys, which are carried untouched.
    The choppable fields are a closed tagged variant with total accessors. */
module Aps {
  import opened Results
  import opened Utf8

  /** A JSON value, for everything the truncator never looks into. */
  datatype Json =
    | JNull
    | JBool(b: bool)
    | JNumber(n: int)
    | JString(s: Text)
    | JArray(items: seq<Json>)
    | JObject(fields: map<string, Json>)

  /** The value under the `alert` key. `AlertOther` stands for any value that is
      neither a string nor a dictionary (a number, a list, ...). */
  datatype AlertValue =
    | AlertText(text: Text)
    | AlertDict(body: Option<Text>, locArgs: Option<seq<Text>>, others: map<string, Json>)
    | AlertOther(value: Json)

  datatype Payload = Payload(alert: Option<AlertValue>, others: map<string, Json>)

  /** A field the truncator may shorten: the `alert` string itself, `alert.body`,
      or entry `index` of `alert.loc-args`. */
  datatype Choppable = Alert | AlertBody | AlertLocArg(index: nat)

  /** The field named by `c` exists in `p` and holds text. */
  predicate Valid(p: Payload, c: Choppable) {
    match c
    case Alert => p.alert.Some? && p.alert.value.AlertText?
    case AlertBody =>
      p.alert.Some? && p.alert.value.AlertDict? && p.alert.value.body.Some?
    case AlertLocArg(i) =>
      p.alert.Some? && p.alert.value.AlertDict? && p.alert.value.locArgs.Some?
      && i < |p.alert.value.locArgs.value|
  }

  /** Position of a choppable in the enumeration order: the alert string or the
      body first, then the loc-args by index. */
  function Rank(c: Choppable): nat {
    match c
    case Alert => 0
    case AlertBody => 0
    case AlertLocArg(i) => i + 1
  }

  function LocArgChoppables(n: nat): (cs: seq<Choppable>)
    ensures |cs| == n
    ensures forall i :: 0 <= i < n ==> cs[i] == AlertLocArg(i)
  {
    seq(n, i requires 0 <= i < n => AlertLocArg(i))
  }

  /** `_choppables_for_aps`: every text field of `p` that may be shortened, each
      exactly once, in enumeration order. */
  function Choppables(p: Payload): (cs: seq<Choppable>)
    ensures forall c :: c in cs <==> Valid(p, c)
    ensures forall i, j :: 0 <= i < j < |cs| ==> Rank(cs[i]) < Rank(cs[j])
  {
    match p.alert
    case None => []
    case Some(AlertText(_)) => [Alert]
    case Some(AlertDict(body, locArgs, _)) =>
      var head := if body.Some? then [AlertBody] else [];
      var tail := if locArgs.Some? then LocArgChoppables(|locArgs.value|) else [];
      assert forall c :: c in tail ==> c.AlertLocArg?;
      assert forall i :: 0 <= i < |tail| ==> tail[i] == AlertLocArg(i);
      assert forall c :: Valid(p, c) && c.AlertLocArg? ==> tail[c.index] == c;
      head + tail
    case Some(AlertOther(_)) => []
  }

  /** `_choppable_get`. */
  function Get(p: Payload, c: Choppable): Text
    requires Valid(p, c)
  {
    match c
    case Alert => p.alert.value.text
    case AlertBody => p.alert.value.body.value
    case AlertLocArg(i) => p.alert.value.locArgs.value[i]
  }

  /** `_choppable_put`: the field named by `c` now holds `t`; every other field,
      choppable or not, is as before. */
  function Put(p: Payload, c: Choppable, t: Text): (r: Payload)
    requires Valid(p, c)
    ensures Valid(r, c) && Get(r, c) == t
    ensures forall d :: Valid(r, d) <==> Valid(p, d)
    ensures forall d :: Valid(p, d) && d != c ==> Get(r, d) == Get(p, d)
    ensures r.others == p.others
    ensures p.alert.value.AlertDict? ==>
      && r.alert.value.AlertDict? && r.alert.value.others == p.alert.value.others
      && r.alert.value.locArgs.Some? == p.alert.value.locArgs.Some?
    ensures Choppables(r) == Choppables(p)
  {
    var a := p.alert.value;
    match c
    case Alert => p.(alert := Some(AlertText(t)))
    case AlertBody => p.(alert := Some(a.(body := Some(t))))
    case AlertLocArg(i) => p.(alert := Some(a.(locArgs := Some(a.locArgs.value[i := t]))))
  }

  /** Writing back what was read changes nothing. */
  lemma PutGet(p: Payload, c: Choppable)
    requires Valid(p, c)
    ensures Put(p, c, Get(p, c)) == p
  {
    match c
    case Alert =>
    case AlertBody =>
    case AlertLocArg(i) =>
      var l := p.alert.value.locArgs.value;
      assert l[i := l[i]] == l;
  }

  predicate IsPrefix(a: Text, b: Text) {
    |a| <= |b| && a == b[..|a|]
  }

  predicate PrefixOption(a: Option<Text>, b: Option<Text>) {
    (a.None? && b.None?) || (a.Some? && b.Some? && IsPrefix(a.value, b.value))
  }

  predicate PrefixEach(a: Option<seq<Text>>, b: Option<seq<Text>>) {
    (a.None? && b.None?)
    || (a.Some? && b.Some? && |a.value| == |b.value|
        && forall i :: 0 <= i < |a.value| ==> IsPrefix(a.value[i], b.value[i]))
  }

  /** `q` is `p` with some choppable texts cut down to prefixes of themselves and
      nothing else changed: same keys, same alert shape, same non-text values. */
  predicate Shortened(p: Payload, q: Payload) {
    q.others == p.others
    && match p.alert
       case None => q.alert.None?
       case Some(AlertText(a)) =>
         q.alert.Some? && q.alert.value.AlertText? && IsPrefix(q.alert.value.text, a)
       case Some(AlertDict(b, l, o)) =>
         q.alert.Some? && q.alert.value.AlertDict? && q.alert.value.others == o
         && PrefixOption(q.alert.value.body, b) && PrefixEach(q.alert.value.locArgs, l)
       case Some(AlertOther(_)) => q.alert == p.alert
  }

  lemma ShortenedReflexive(p: Payload)
    ensures Shortened(p, p)
  {
  }

  lemma ShortenedTransitive(p: Payload, q: Payload, r: Payload)
    requires Shortened(p, q) && Shortened(q, r)
    ensures Shortened(p, r)
  {
    match p.alert
    case None =>
    case Some(AlertText(a)) =>
    case Some(AlertDict(b, l, o)) =>
      var lq, lr := q.alert.value.locArgs, r.alert.value.locArgs;
      if l.Some? {
        forall i | 0 <= i < |lr.value|
          ensures IsPrefix(lr.value[i], l.value[i])
        {
          assert IsPrefix(lq.value[i], l.value[i]);
        }
      }
    case Some(AlertOther(_)) =>
  }

  /** Shortening a choppable field to a prefix of its text yields a `Shortened` payload. */
  lemma PutPrefixShortened(p: Payload, c: Choppable, t: Text)
    requires Valid(p, c) && IsPrefix(t, Get(p, c))
    ensures Shortened(p, Put(p, c, t))
  {
    var r := Put(p, c, t);
    match c
    case Alert =>
    case AlertBody =>
    case AlertLocArg(i) =>
      var l := p.alert.value.locArgs.value;
      forall j | 0 <= j < |l|
        ensures IsPrefix(r.alert.value.locArgs.value[j], l[j])
      {
        if j != i {
          assert r.alert.value.locArgs.value[j] == l[j];
        }
      }
  }

  /** Every choppable field of `p` is empty. */
  predicate Exhausted(p: Payload) {
    forall c :: c in Choppables(p) ==> Get(p, c) == []
  }

  function EmptyTexts(n: nat): (ts: seq<Text>)
    ensures |ts| == n && forall i :: 0 <= i < n ==> ts[i] == []
  {
    seq(n, i => [])
  }

  /** `p` with every choppable field emptied: the shortest payload the truncator
      can ever reach from `p`. */
  function Emptied(p: Payload): (r: Payload)
    ensures Shortened(p, r)
    ensures Exhausted(r)
  {
    match p.alert
    case None => p
    case Some(AlertText(_)) => p.(alert := Some(AlertText([])))
    case Some(AlertDict(b, l, o)) =>
      var b' := if b.Some? then Some([]) else None;
      var l' := if l.Some? then Some(EmptyTexts(|l.value|)) else None;
      p.(alert := Some(AlertDict(b', l', o)))
    case Some(AlertOther(_)) => p
  }

  /** The only exhausted payload `p` can be shortened to is `Emptied(p)`. */
  lemma ExhaustedIsEmptied(p: Payload, q: Payload)
    requires Shortened(p, q) && Exhausted(q)
    ensures q == Emptied(p)
  {
    match p.alert
    case None =>
    case Some(AlertText(_)) =>
      assert Alert in Choppables(q);
    case Some(AlertDict(b, l, o)) =>
      var a := q.alert.value;
      if b.Some? {
        assert AlertBody in Choppables(q);
      }
      if l.Some? {
        forall i | 0 <= i < |l.value|
          ensures a.locArgs.value[i] == []
        {
          assert AlertLocArg(i) in Choppables(q);
        }
        assert a.locArgs.value == EmptyTexts(|l.value|);
      }
    case Some(AlertOther(_)) =>
  }

  /** Shortening never changes what emptying reaches. */
  lemma ShortenedSameEmptied(p: Payload, q: Payload)
    requires Shortened(p, q)
    ensures Emptied(q) == Emptied(p)
  {
  }

  /** Sum of the code-point counts of a list of texts. */
  function TotalLength(ts: seq<Text>): nat
  {
    if ts == [] then 0 else |ts[0]| + TotalLength(ts[1..])
  }

  lemma {:induction false} TotalLengthUpdate(ts: seq<Text>, i: nat, t: Text)
    requires i < |ts|
    ensures TotalLength(ts[i := t]) == TotalLength(ts) - |ts[i]| + |t|
  {
    if i > 0 {
      assert ts[i := t][1..] == ts[1..][i - 1 := t];
      TotalLengthUpdate(ts[1..], i - 1, t);
    }
  }

  /** Total number of code points held in the choppable fields. */
  function CodePointCount(p: Payload): nat
  {
    match p.alert
    case Some(AlertText(t)) => |t|
    case Some(AlertDict(b, l, _)) =>
      (if b.Some? then |b.value| else 0) + (if l.Some? then TotalLength(l.value) else 0)
    case _ => 0
  }

  /** Replacing one choppable text changes the total code-point count by the
      difference in that field's length and by nothing else. */
  lemma PutCodePointCount(p: Payload, c: Choppable, t: Text)
    requires Valid(p, c)
    ensures CodePointCount(Put(p, c, t)) == CodePointCount(p) - |Get(p, c)| + |t|
  {
    match c
    case Alert =>
    case AlertBody =>
    case AlertLocArg(i) =>
      TotalLengthUpdate(p.alert.value.locArgs.value, i, t);
  }
}

=== FILE: bytes.dfy ===
/** Octets and the big-endian integer fields of the push wire format
    (Python's `struct` formats `!B`, `!H` and `!I`). */
module Bytes {

  type byte = b: int | 0 <= b < 0x100
  type bytes = seq<byte>

  const TWO_16: int := 0x1_0000
  const TWO_32: int := 0x1_0000_0000

  /** `struct.pack("!H", n)`: two octets, most significant first. */
  function U16(n: int): (r: bytes)
    requires 0 <= n < TWO_16
    ensures |r| == 2
  {
    [n / 0x100, n % 0x100]
  }

  /** `struct.pack("!I", n)`: four octets, most significant first. */
  function U32(n: int): (r: bytes)
    requires 0 <= n < TWO_32
    ensures |r| == 4
  {
    [n / 0x100_0000, (n / 0x1_0000) % 0x100, (n / 0x100) % 0x100, n % 0x100]
  }

  /** `struct.unpack("!H", b[..2])`. */
  function ReadU16(b: bytes): (n: nat)
    requires |b| >= 2
    ensures n < TWO_16
  {
    (b[0] as int) * 0x100 + b[1]
  }

  /** `struct.unpack("!I", b[..4])`. */
  function ReadU32(b: bytes): (n: nat)
    requires |b| >= 4
    ensures n < TWO_32
  {
    (((b[0] as int) * 0x100 + b[1]) * 0x100 + b[2]) * 0x100 + b[3]
  }

  lemma U16RoundTrip(n: int)
    requires 0 <= n < TWO_16
    ensures ReadU16(U16(n)) == n
  {
  }

  lemma U32RoundTrip(n: int)
    requires 0 <= n < TWO_32
    ensures ReadU32(U32(n)) == n
  {
    var q1 := n / 0x100;
    var q2 := q1 / 0x100;
    var q3 := q2 / 0x100;
    assert n == q1 * 0x100 + n % 0x100;
    assert q1 == q2 * 0x100 + q1 % 0x100;
    assert q2 == q3 * 0x100 + q2 % 0x100;
    assert n / 0x1_0000 == q2;
    assert n / 0x100_0000 == q3;
  }

  /** Every four octets are the encoding of the number they read as. */
  lemma ReadU32Inverse(b: bytes)
    requires |b| == 4
    ensures U32(ReadU32(b)) == b
  {
    var n := ReadU32(b);
    var m1 := (b[0] as int) * 0x100 + b[1];
    var m2 := m1 * 0x100 + b[2];
    assert n / 0x100 == m2 && n % 0x100 == b[3];
    assert m2 / 0x100 == m1 && m2 % 0x100 == b[2];
    assert m1 / 0x100 == b[0] && m1 % 0x100 == b[1];
    assert n / 0x1_0000 == m1 by {
      assert n == m1 * 0x1_0000 + ((b[2] as int) * 0x100 + b[3]);
    }
    assert n / 0x100_0000 == b[0] by {
      assert n == (b[0] as int) * 0x100_0000 + ((b[1] as int) * 0x1_0000 + (b[2] as int) * 0x100 + b[3]);
    }
  }

  lemma ReadU16Inverse(b: bytes)
    requires |b| == 2
    ensures U16(ReadU16(b)) == b
  {
  }
}

=== FILE: connection.dfy ===
/** One push connection as a state record with pure transition functions: `send`
    (sequence number, retirement cap, frame, ledger entry), the lifecycle flags,
    the idle and error-wait timeouts checked by the reader, one receive cycle of
    the reader, and the resolution of an error report (`_push_failed`).

    Sockets, TLS and scheduling are replaced by parameters: the clock reading
    `now`, whether the frame write completed, what `recv` returned, whether a
    failure callback is registered, and the order in which Python iterates the
    ledger dictionary. */
module Connection {
  import opened Results
  import opened Bytes
  import opened Aps
  import opened Truncation
  import opened Frames
  import opened Ledger

  /** Sequence numbers are 32 bits on the wire; a connection retires before 2^31. */
  const MAX_PUSHES_PER_CONNECTION: int := 0x8000_0000
  const MAX_CONN_IDLE_SEC: int := 30

  datatype Conn = Conn(
    seqNo: int,                 // the last sequence number handed out; -1 before the first
    alive: bool,                // false once the socket is closed
    useable: bool,              // false once the connection refuses new pushes
    sent: SentMap,              // the ledger
    lastPushSent: Option<nat>,  // when the last frame was written
    lastFailedSeq: Option<nat>) // the sequence number of the last error report

  const NewConnection: Conn := Conn(-1, true, true, map[], None, None)

  /** What holds of every connection the transitions below can reach. */
  predicate Inv(c: Conn) {
    && c.seqNo >= -1
    && (!c.alive ==> !c.useable)
    && (c.useable ==> c.seqNo < MAX_PUSHES_PER_CONNECTION)
    && (forall k :: k in c.sent ==> k <= c.seqNo && k < MAX_PUSHES_PER_CONNECTION)
  }

  /** A new connection is alive, useable and has written nothing. */
  lemma NewConnectionInv()
    ensures Inv(NewConnection) && NewConnection.alive && NewConnection.useable
    ensures NewConnection.sent == map[] && NewConnection.seqNo + 1 == 0
  {
  }

  /** The lifecycle flags only ever go from true to false. */
  predicate Demoted(c: Conn, c': Conn) {
    (c'.alive ==> c.alive) && (c'.useable ==> c.useable)
  }

  /** `_close_connection`: both flags cleared, nothing else touched. */
  function Close(c: Conn): (r: Conn)
    ensures !r.alive && !r.useable
    ensures r.(alive := c.alive, useable := c.useable) == c
    ensures Inv(c) ==> Inv(r)
  {
    c.(alive := false, useable := false)
  }

  /** `_retire_connection`: no new pushes, but still alive to hear late reports. */
  function Retire(c: Conn): (r: Conn)
    ensures !r.useable && r.alive == c.alive
    ensures r.(useable := c.useable) == c
    ensures Inv(c) ==> Inv(r)
  {
    c.(useable := false)
  }

  /** `_nextSeq`. */
  function NextSeq(c: Conn): (r: Conn)
    ensures r.seqNo == c.seqNo + 1 && r.(seqNo := c.seqNo) == c
  {
    c.(seqNo := c.seqNo + 1)
  }

  /** The arguments of `PushBaby.send(payload, token, expiration, priority, identifier)`. */
  datatype SendRequest = SendRequest(
    payload: Payload,
    token: bytes,
    expiration: Option<int>,
    priority: Option<int>,
    identifier: Option<string>)

  datatype SendError =
    | ConnectionDead   // `ConnectionDeadException`
    | BodyTooLong      // `BodyTooLongException` from the truncator
    | PackFailed       // `struct.error` while building the frame
    | WriteFailed      // the socket write raised

  /** The connection after a `send`, and the frame it wrote or the exception it raised. */
  datatype SendOutcome = SendOutcome(conn: Conn, written: Result<bytes, SendError>)

  /** `json_for_aps(truncate(aps))`: the serialised truncated payload, or the
      truncator's refusal. A body never exceeds 2048 octets. */
  function Body(serialize: Payload -> bytes, p: Payload): (r: Result<bytes, TruncateError>)
    ensures r.Success? <==> Truncate(serialize, p, DEFAULT_MAX_LENGTH).Success?
    ensures r.Success? ==> r.value == serialize(Truncate(serialize, p, DEFAULT_MAX_LENGTH).value)
    ensures r.Success? ==> |r.value| <= DEFAULT_MAX_LENGTH
  {
    var aps :- Truncate(serialize, p, DEFAULT_MAX_LENGTH);
    Success(serialize(aps))
  }

  /** `PushConnection.send`. The sequence number advances on every send that passes
      the `alive` check, even one refused afterwards; reaching 2^31 retires the
      connection, and nothing else changes its flags; a frame is written exactly
      when the connection is useable, the number is below 2^31, the body fits,
      every field packs and the write completes; only a written frame adds a
      ledger entry and moves `lastPushSent`. Past the checks of the sequence
      number, `send` is `Transmit` with the new number; `SendWrites` and
      `SendRefused` state the frame and ledger guarantees in terms of the connection `send` was given. */
  function Send(serialize: Payload -> bytes, c: Conn, req: SendRequest, now: nat, writeOk: bool)
    : (r: SendOutcome)
    ensures !c.alive ==> r == SendOutcome(c, Failure(ConnectionDead))
    ensures c.alive ==> r.conn.alive && r.conn.seqNo == c.seqNo + 1
    ensures Demoted(c, r.conn) && r.conn.lastFailedSeq == c.lastFailedSeq
    ensures c.alive && c.seqNo + 1 >= MAX_PUSHES_PER_CONNECTION ==>
      !r.conn.useable && r.written == Failure(ConnectionDead)
    ensures c.alive && c.seqNo + 1 < MAX_PUSHES_PER_CONNECTION ==> r.conn.useable == c.useable
    ensures !c.useable ==> r.written == Failure(ConnectionDead)
    ensures c.alive && c.useable && c.seqNo + 1 < MAX_PUSHES_PER_CONNECTION ==>
      r == Transmit(serialize, c.(seqNo := c.seqNo + 1), req, now, writeOk)
    ensures Inv(c) ==> Inv(r.conn)
  {
    if !c.alive then SendOutcome(c, Failure(ConnectionDead))
    else
      var c1 := NextSeq(c);
      var c2 := if c1.seqNo >= MAX_PUSHES_PER_CONNECTION then Retire(c1) else c1;
      if !c2.useable then SendOutcome(c2, Failure(ConnectionDead))
      else Transmit(serialize, c2, req, now, writeOk)
  }

  /** The part of `send` after the sequence number is taken, on a useable
      connection: truncate, frame, write, and record the push in the ledger. The
      frame is written exactly when the body fits, every field packs and the
      write completes. */
  function Transmit(serialize: Payload -> bytes, c: Conn, req: SendRequest, now: nat, writeOk: bool)
    : (r: SendOutcome)
    requires c.useable
    ensures r.written.Failure? ==> r.conn == c && r.written.error != ConnectionDead
    ensures r.written == Failure(SendError.BodyTooLong) ==> Body(serialize, req.payload).Failure?
    ensures r.written == Failure(PackFailed) ==>
      && Body(serialize, req.payload).Success?
      && BuildFrame(req.token, Body(serialize, req.payload).value, c.seqNo, req.expiration, req.priority).Failure?
    ensures r.written == Failure(WriteFailed) ==> !writeOk
    ensures Body(serialize, req.payload).Failure? ==> r.written == Failure(SendError.BodyTooLong)
    ensures Body(serialize, req.payload).Success?
            && BuildFrame(req.token, Body(serialize, req.payload).value, c.seqNo, req.expiration, req.priority).Failure?
            ==> r.written == Failure(PackFailed)
    ensures Body(serialize, req.payload).Success?
            && BuildFrame(req.token, Body(serialize, req.payload).value, c.seqNo, req.expiration, req.priority).Success?
            ==> (r.written == Failure(WriteFailed) <==> !writeOk)
    ensures writeOk && Body(serialize, req.payload).Success?
            && BuildFrame(req.token, Body(serialize, req.payload).value, c.seqNo, req.expiration, req.priority).Success?
            ==> r.written.Success?
    ensures r.written.Success? ==>
      && Body(serialize, req.payload).Success?
      && BuildFrame(req.token, Body(serialize, req.payload).value, c.seqNo, req.expiration, req.priority)
         == Success(r.written.value)
    ensures r.written.Success? ==>
      && writeOk && 0 <= c.seqNo < TWO_32
      && Body(serialize, req.payload).Success?
      && ParseFrame(r.written.value)
         == Some(ExpectedPush(req.token, Body(serialize, req.payload).value, c.seqNo, req.expiration, req.priority))
    ensures r.written.Success? ==>
      r.conn == c.(sent := c.sent[c.seqNo := SentMessage(now, req.token, req.payload,
                                                          req.expiration, req.priority, req.identifier)],
                   lastPushSent := Some(now))
    ensures Inv(c) ==> Inv(r.conn)
  {
    match Body(serialize, req.payload)
    case Failure(_) => SendOutcome(c, Failure(SendError.BodyTooLong))
    case Success(body) =>
      match BuildFrame(req.token, body, c.seqNo, req.expiration, req.priority)
      case Failure(_) => SendOutcome(c, Failure(PackFailed))
      case Success(frame) =>
        if !writeOk then SendOutcome(c, Failure(WriteFailed))
        else
          var entry := SentMessage(now, req.token, req.payload, req.expiration, req.priority, req.identifier);
          SendOutcome(c.(sent := c.sent[c.seqNo := entry], lastPushSent := Some(now)), Success(frame))
  }

  /** A refused `send` leaves the ledger and the time of the last push as they
      were, and each refusal names its cause: a body over the limit, a field
      that does not pack under the next sequence number, a failed write. */
  lemma SendRefused(serialize: Payload -> bytes, c: Conn, req: SendRequest, now: nat, writeOk: bool, r: SendOutcome)
    requires r == Send(serialize, c, req, now, writeOk)
    ensures r.written.Failure? ==> r.conn.sent == c.sent && r.conn.lastPushSent == c.lastPushSent
    ensures r.written == Failure(SendError.BodyTooLong) ==> Body(serialize, req.payload).Failure?
    ensures r.written == Failure(PackFailed) ==>
      && Body(serialize, req.payload).Success?
      && BuildFrame(req.token, Body(serialize, req.payload).value, c.seqNo + 1, req.expiration, req.priority).Failure?
    ensures r.written == Failure(WriteFailed) ==> !writeOk
    ensures c.alive && c.useable && c.seqNo + 1 < MAX_PUSHES_PER_CONNECTION ==>
      && (Body(serialize, req.payload).Failure? ==> r.written == Failure(SendError.BodyTooLong))
      && (Body(serialize, req.payload).Success?
          && BuildFrame(req.token, Body(serialize, req.payload).value, c.seqNo + 1, req.expiration, req.priority).Failure?
          ==> r.written == Failure(PackFailed))
      && (Body(serialize, req.payload).Success?
          && BuildFrame(req.token, Body(serialize, req.payload).value, c.seqNo + 1, req.expiration, req.priority).Success?
          ==> (r.written == Failure(WriteFailed) <==> !writeOk))
  {
  }

  /** A `send` writes exactly when the connection is alive and useable, the next
      sequence number is below 2^31, the body fits, the frame packs and the write
      completes; the frame parses back to the push under the next number, which
      the ledger then records. */
  lemma SendWrites(serialize: Payload -> bytes, c: Conn, req: SendRequest, now: nat, writeOk: bool, r: SendOutcome)
    requires r == Send(serialize, c, req, now, writeOk)
    ensures c.alive && c.useable && c.seqNo + 1 < MAX_PUSHES_PER_CONNECTION && writeOk
            && Body(serialize, req.payload).Success?
            && BuildFrame(req.token, Body(serialize, req.payload).value, c.seqNo + 1, req.expiration, req.priority).Success?
            ==> r.written.Success?
    ensures r.written.Success? ==>
      && c.alive && c.useable && writeOk
      && 0 <= c.seqNo + 1 < MAX_PUSHES_PER_CONNECTION
      && Body(serialize, req.payload).Success?
      && ParseFrame(r.written.value)
         == Some(ExpectedPush(req.token, Body(serialize, req.payload).value, c.seqNo + 1, req.expiration, req.priority))
    ensures r.written.Success? ==>
      && r.conn.sent == c.sent[c.seqNo + 1 := SentMessage(now, req.token, req.payload,
                                                          req.expiration, req.priority, req.identifier)]
      && r.conn.lastPushSent == Some(now)
    ensures r.written.Success? ==>
      && Body(serialize, req.payload).Success?
      && BuildFrame(req.token, Body(serialize, req.payload).value, c.seqNo + 1, req.expiration, req.priority)
         == Success(r.written.value)
  {
  }

  /** `if self.last_push_sent:`, a time of 0 being falsy. */
  predicate PushedBefore(c: Conn) {
    c.lastPushSent.Some? && c.lastPushSent.value != 0
  }

  /** The idle checks of the reader: a useable connection idle for more than 30 s
      is retired, and one that is (then) not useable and idle for more than 60 s
      is closed. */
  function IdleCheck(c: Conn, now: nat): (r: Conn)
    ensures Demoted(c, r)
    ensures r.(alive := c.alive, useable := c.useable) == c
    ensures !PushedBefore(c) ==> r == c
    ensures PushedBefore(c) && now - c.lastPushSent.value <= MAX_CONN_IDLE_SEC ==> r == c
    ensures PushedBefore(c) && now - c.lastPushSent.value > MAX_ERROR_WAIT_SEC ==> !r.alive
    ensures PushedBefore(c) && MAX_CONN_IDLE_SEC < now - c.lastPushSent.value <= MAX_ERROR_WAIT_SEC ==>
      r.alive == c.alive && !r.useable
    ensures Inv(c) ==> Inv(r)
  {
    if !PushedBefore(c) then c
    else
      var idle := now - c.lastPushSent.value;
      var c1 := if c.useable && idle > MAX_CONN_IDLE_SEC then Retire(c) else c;
      if !c1.useable && idle > MAX_ERROR_WAIT_SEC then Close(c1) else c1
  }

  /** What one `recv` on the reader's socket produced. */
  datatype Recv =
    | Received(data: bytes)   // some octets, no more than were asked for
    | PeerClosed              // `recv` returned ''
    | ReadTimeout             // the TLS read timed out: the one exception the reader lets pass
    | ReadFailed              // any other exception, a plain socket timeout included

  /** The reader between iterations: the connection and the octets of the
      error report read so far. */
  datatype Reader = Reader(conn: Conn, buf: bytes)

  /** The reader died with `KeyError(key)` raised by a prune; `conn` is the
      connection as it was left. Nothing closes or retires it any more, so its
      flags stay as they were. */
  datatype Halt = Halt(conn: Conn, key: nat)

  /** One iteration of the reader's inner loop: prune the ledger, receive, and,
      unless the receive closed the connection, run the idle checks. A `KeyError`
      from the prune ends the reader and leaves the connection alive. */
  function ReadCycle(c: Conn, buf: bytes, now: nat, order: seq<nat>, ev: Recv)
    : (r: Result<Reader, Halt>)
    requires c.alive && |buf| < 6
    requires IsEnumeration(order, c.sent.Keys)
    requires ev.Received? ==> 0 < |ev.data| <= 6 - |buf|
    ensures r.Failure? <==> PruneSent(c.sent, now, c.lastFailedSeq, order).Failure?
    ensures r.Failure? ==>
      && r.error.conn.(sent := c.sent) == c
      && r.error.conn.sent.Keys < c.sent.Keys
      && r.error.key in c.sent && r.error.key !in r.error.conn.sent
    ensures r.Failure? ==>
      && r.error.conn.sent == PruneSent(c.sent, now, c.lastFailedSeq, order).error.left
      && r.error.key == PruneSent(c.sent, now, c.lastFailedSeq, order).error.key
    ensures r.Success? ==>
      && r.value.conn.sent == PruneSent(c.sent, now, c.lastFailedSeq, order).value
      && Demoted(c, r.value.conn)
      && r.value.conn.seqNo == c.seqNo
      && r.value.conn.lastPushSent == c.lastPushSent
      && r.value.conn.lastFailedSeq == c.lastFailedSeq
      && |r.value.buf| <= 6
      && r.value.buf == (if ev.Received? then buf + ev.data else buf)
    ensures r.Success? && (ev.PeerClosed? || ev.ReadFailed?) ==> !r.value.conn.alive
    ensures r.Success? && (ev.ReadTimeout? || ev.Received?) ==>
      r.value.conn == IdleCheck(c.(sent := PruneSent(c.sent, now, c.lastFailedSeq, order).value), now)
    ensures Inv(c) && r.Success? ==> Inv(r.value.conn)
    ensures Inv(c) && r.Failure? ==> Inv(r.error.conn)
  {
    match PruneSent(c.sent, now, c.lastFailedSeq, order)
    case Failure(e) =>
      assert e.left.Keys <= c.sent.Keys && e.key in c.sent && e.key !in e.left;
      Failure(Halt(c.(sent := e.left), e.key))
    case Success(pruned) =>
      var c1 := c.(sent := pruned);
      assert Inv(c) ==> Inv(c1);
      match ev
      case PeerClosed => Success(Reader(Close(c1), buf))
      case ReadFailed => Success(Reader(Close(c1), buf))
      case ReadTimeout => Success(Reader(IdleCheck(c1, now), buf))
      case Received(data) => Success(Reader(IdleCheck(c1, now), buf + data))
  }

  /** A failure report for a push, delivered to the registered `on_push_failed`. */
  datatype Callback = Callback(token: bytes, identifier: Option<string>, status: byte)

  /** The connection after an error report, the callback it fires (if any) and
      the pushes it hands back to `PushBaby.send`, in order. */
  datatype Resolution = Resolution(conn: Conn, callback: Option<Callback>, resends: seq<SendRequest>)

  /** The call `self.pushbaby.send(m.payload, m.token, m.priority, m.expiration,
      m.identifier)` read against `PushBaby.send(payload, token, expiration,
      priority, identifier)`: the stored priority arrives as the expiration and the
      stored expiration as the priority. */
  function ResendOf(m: SentMessage): (r: SendRequest)
    ensures r.payload == m.payload && r.token == m.token && r.identifier == m.identifier
    ensures r.expiration == m.priority && r.priority == m.expiration
  {
    SendRequest(m.payload, m.token, m.priority, m.expiration, m.identifier)
  }

  predicate Ascending(s: seq<nat>) {
    forall i, j :: 0 <= i < j < |s| ==> s[i] < s[j]
  }

  /** The keys of `m` in the order `order` visits them: how `m.values()` iterates
      a dictionary after deletions. */
  function InOrder(order: seq<nat>, m: SentMap): (r: seq<nat>)
    ensures forall k :: k in r <==> k in order && k in m
  {
    if order == [] then []
    else if order[0] in m then [order[0]] + InOrder(order[1..], m)
    else InOrder(order[1..], m)
  }

  /** Visiting the keys in ascending order resends them in ascending order, each once. */
  lemma {:induction false} InOrderAscending(order: seq<nat>, m: SentMap)
    requires Ascending(order)
    ensures Ascending(InOrder(order, m))
  {
    if order != [] {
      var rest := InOrder(order[1..], m);
      assert Ascending(order[1..]) by {
        assert forall i :: 0 <= i < |order[1..]| ==> order[1..][i] == order[i + 1];
      }
      InOrderAscending(order[1..], m);
      if order[0] in m {
        var r := [order[0]] + rest;
        forall i, j | 0 <= i < j < |r|
          ensures r[i] < r[j]
        {
          if i == 0 {
            assert r[j] in rest;
            assert r[j] in order[1..];
            var k :| 0 <= k < |order[1..]| && order[1..][k] == r[j];
            assert order[k + 1] == r[j];
          } else {
            assert r[i] == rest[i - 1] && r[j] == rest[j - 1];
          }
        }
      }
    }
  }

  /** A dictionary's iteration visits each surviving key once. */
  lemma {:induction false} InOrderNoDuplicates(order: seq<nat>, m: SentMap)
    requires NoDuplicates(order)
    ensures NoDuplicates(InOrder(order, m))
  {
    if order != [] {
      var rest := InOrder(order[1..], m);
      assert NoDuplicates(order[1..]) by {
        assert forall i :: 0 <= i < |order[1..]| ==> order[1..][i] == order[i + 1];
      }
      InOrderNoDuplicates(order[1..], m);
      if order[0] in m {
        assert order[0] !in order[1..];
        var r := [order[0]] + rest;
        assert forall i :: 0 < i < |r| ==> r[i] == rest[i - 1] && r[i] in rest;
      }
    }
  }

  function Resends(keys: seq<nat>, m: SentMap): (r: seq<SendRequest>)
    requires forall k :: k in keys ==> k in m
    ensures |r| == |keys|
    ensures forall i :: 0 <= i < |keys| ==> r[i] == ResendOf(m[keys[i]])
  {
    seq(|keys|, i requires 0 <= i < |keys| => ResendOf(m[keys[i]]))
  }

  /** The entry for `failedSeq` survives the prune that `_push_failed` starts with. */
  predicate Remembered(c: Conn, failedSeq: nat, now: nat) {
    failedSeq in c.sent && !Expired(c.sent[failedSeq], now)
  }

  /** `_push_failed(status, seq)`. The connection is retired. A report for a
      sequence number the ledger no longer holds does nothing more. Otherwise a
      shutdown status resends the failed push and fires no callback, any other
      status fires the callback (when one is registered) and does not resend it;
      then every other surviving entry is resent in ledger order. Entries below the
      failed sequence number and expired entries are gone; resent entries stay. */
  function PushFailed(c: Conn, status: byte, failedSeq: nat, now: nat, order: seq<nat>, callbackSet: bool)
    : (r: Result<Resolution, Halt>)
    requires IsEnumeration(order, c.sent.Keys)
    ensures r.Failure? <==> exists k :: k in c.sent && DoublyDeleted(c.sent, k, now, Some(failedSeq))
    ensures r.Failure? ==>
      var s := r.error.conn;
      && s.alive == c.alive && s.useable == c.useable && s.seqNo == c.seqNo
      && s.lastPushSent == c.lastPushSent && s.lastFailedSeq == Some(failedSeq)
      && s.sent.Keys < c.sent.Keys && r.error.key in c.sent && r.error.key !in s.sent
      && DoublyDeleted(c.sent, r.error.key, now, Some(failedSeq))
      && (forall k :: k in s.sent ==> s.sent[k] == c.sent[k])
    ensures r.Failure? ==>
      && r.error.conn.sent == PruneSent(c.sent, now, Some(failedSeq), order).error.left
      && r.error.key == PruneSent(c.sent, now, Some(failedSeq), order).error.key
    ensures r.Success? ==>
      forall k :: k in c.sent && k != failedSeq && !Expired(c.sent[k], now) && !BelowCutoff(k, Some(failedSeq))
        ==> k in r.value.conn.sent
    ensures r.Success? ==>
      var s := r.value.conn;
      && !s.useable && s.alive == c.alive && s.seqNo == c.seqNo
      && s.lastPushSent == c.lastPushSent && s.lastFailedSeq == Some(failedSeq)
      && (forall k :: k in s.sent ==>
            k in c.sent && s.sent[k] == c.sent[k] && !Expired(c.sent[k], now) && k != failedSeq
            && !BelowCutoff(k, Some(failedSeq)))
    ensures r.Success? && !Remembered(c, failedSeq, now) ==>
      r.value.callback.None? && r.value.resends == []
    ensures r.Success? && Remembered(c, failedSeq, now) ==>
      var s := r.value.conn;
      var failed := c.sent[failedSeq];
      var later := Resends(InOrder(order, s.sent), s.sent);
      && (forall k :: k in c.sent && k > failedSeq && !Expired(c.sent[k], now) ==> k in s.sent)
      && (StatusOf(status) == Shutdown ==>
            r.value.callback.None? && r.value.resends == [ResendOf(failed)] + later)
      && (StatusOf(status) != Shutdown ==>
            r.value.resends == later
            && r.value.callback == if callbackSet then Some(Callback(failed.token, failed.identifier, status)) else None)
    ensures Inv(c) && r.Success? ==> Inv(r.value.conn)
    ensures Inv(c) && r.Failure? ==> Inv(r.error.conn)
  {
    match PruneSent(c.sent, now, Some(failedSeq), order)
    case Failure(e) => Failure(Halted(c, failedSeq, now, order, e))
    case Success(pruned) => Success(Settle(c, status, failedSeq, now, order, callbackSet, pruned))
  }

  /** `_push_failed` when its prune raises `KeyError`: `last_failed_seq` is
      already set, the retirement is never reached, and the connection keeps the
      ledger as the prune left it. */
  function Halted(c: Conn, failedSeq: nat, now: nat, order: seq<nat>, e: PruneError): (h: Halt)
    requires IsEnumeration(order, c.sent.Keys)
    requires PruneSent(c.sent, now, Some(failedSeq), order) == Failure(e)
    ensures
      var s := h.conn;
      && s.alive == c.alive && s.useable == c.useable && s.seqNo == c.seqNo
      && s.lastPushSent == c.lastPushSent && s.lastFailedSeq == Some(failedSeq)
      && s.sent.Keys < c.sent.Keys && h.key in c.sent && h.key !in s.sent
      && DoublyDeleted(c.sent, h.key, now, Some(failedSeq))
      && (forall k :: k in s.sent ==> s.sent[k] == c.sent[k])
    ensures h.conn.sent == e.left && h.key == e.key
    ensures Inv(c) ==> Inv(h.conn)
  {
    assert e.left.Keys <= c.sent.Keys && e.key in c.sent && e.key !in e.left;
    Halt(c.(lastFailedSeq := Some(failedSeq), sent := e.left), e.key)
  }

  /** `_push_failed` when its prune completes: the pruned ledger, with
      `last_failed_seq` set, is resolved. */
  function Settle(c: Conn, status: byte, failedSeq: nat, now: nat, order: seq<nat>, callbackSet: bool,
                  pruned: SentMap): (r: Resolution)
    requires IsEnumeration(order, c.sent.Keys)
    requires PruneSent(c.sent, now, Some(failedSeq), order) == Success(pruned)
    ensures forall k ::
      k in c.sent && k != failedSeq && !Expired(c.sent[k], now) && !BelowCutoff(k, Some(failedSeq))
      ==> k in r.conn.sent
    ensures
      var s := r.conn;
      && !s.useable && s.alive == c.alive && s.seqNo == c.seqNo
      && s.lastPushSent == c.lastPushSent && s.lastFailedSeq == Some(failedSeq)
      && (forall k :: k in s.sent ==>
            k in c.sent && s.sent[k] == c.sent[k] && !Expired(c.sent[k], now) && k != failedSeq
            && !BelowCutoff(k, Some(failedSeq)))
    ensures !Remembered(c, failedSeq, now) ==> r.callback.None? && r.resends == []
    ensures Remembered(c, failedSeq, now) ==>
      var s := r.conn;
      var failed := c.sent[failedSeq];
      var later := Resends(InOrder(order, s.sent), s.sent);
      && (forall k :: k in c.sent && k > failedSeq && !Expired(c.sent[k], now) ==> k in s.sent)
      && (StatusOf(status) == Shutdown ==>
            r.callback.None? && r.resends == [ResendOf(failed)] + later)
      && (StatusOf(status) != Shutdown ==>
            r.resends == later
            && r.callback == if callbackSet then Some(Callback(failed.token, failed.identifier, status)) else None)
    ensures Inv(c) ==> Inv(r.conn)
  {
    assert failedSeq in pruned <==> Remembered(c, failedSeq, now);
    var r := Resolve(c.(lastFailedSeq := Some(failedSeq), sent := pruned), status, failedSeq, order, callbackSet);
    assert failedSeq in pruned ==> r.conn.sent == pruned - {failedSeq};
    r
  }

  /** The part of `_push_failed` after its prune, on the pruned connection `c`. */
  function Resolve(c: Conn, status: byte, failedSeq: nat, order: seq<nat>, callbackSet: bool): (r: Resolution)
    ensures !r.conn.useable && r.conn.(useable := c.useable, sent := c.sent) == c
    ensures failedSeq !in c.sent ==> r == Resolution(Retire(c), None, [])
    ensures failedSeq in c.sent ==> r.conn.sent == c.sent - {failedSeq}
    ensures failedSeq in c.sent ==>
      var failed := c.sent[failedSeq];
      var later := Resends(InOrder(order, c.sent - {failedSeq}), c.sent - {failedSeq});
      (StatusOf(status) == Shutdown ==> r.callback.None? && r.resends == [ResendOf(failed)] + later)
      && (StatusOf(status) != Shutdown ==>
            r.resends == later
            && r.callback == if callbackSet then Some(Callback(failed.token, failed.identifier, status)) else None)
  {
    var c1 := Retire(c);
    if failedSeq in c.sent then
      var failed := c.sent[failedSeq];
      var shutdown := StatusOf(status) == Shutdown;
      var first := if shutdown then [ResendOf(failed)] else [];
      var callback := if !shutdown && callbackSet then Some(Callback(failed.token, failed.identifier, status)) else None;
      // The failed entry is deleted; the entries resent below stay in the ledger.
      var rest := c.sent - {failedSeq};
      var keys := InOrder(order, rest);
      var later := Resends(keys, rest);
      Resolution(c1.(sent := rest), callback, first + later)
    else
      Resolution(c1, None, [])
  }

  /** The reader with a whole six-octet report in hand: decode it; an unknown
      command closes the connection, and the report is resolved all the same. */
  function HandleReport(c: Conn, buf: bytes, now: nat, order: seq<nat>, callbackSet: bool)
    : (r: Result<Resolution, Halt>)
    requires c.alive && |buf| == 6
    requires IsEnumeration(order, c.sent.Keys)
    ensures var f := DecodeErrorFrame(buf);
      && (f.command != COMMAND_ERROR && r.Success? ==> !r.value.conn.alive)
      && (f.command == COMMAND_ERROR && r.Success? ==> r.value.conn.alive)
      && r == PushFailed(if f.command == COMMAND_ERROR then c else Close(c), f.status, f.seqNo, now, order, callbackSet)
    ensures Inv(c) && r.Success? ==> Inv(r.value.conn)
  {
    var f := DecodeErrorFrame(buf);
    // An unrecognised command closes the connection but still falls through to
    // the failure resolution, as the reader does.
    var c1 := if f.command != COMMAND_ERROR then Close(c) else c;
    PushFailed(c1, f.status, f.seqNo, now, order, callbackSet)
  }

  /** One call of `send` with the clock reading and the fate of its write. */
  datatype Attempt = Attempt(req: SendRequest, now: nat, writeOk: bool)

  /** The connection after a run of sends, and the sequence numbers of the frames
      written, in writing order. */
  datatype Run = Run(conn: Conn, written: seq<nat>)

  function SendSeries(serialize: Payload -> bytes, c: Conn, attempts: seq<Attempt>): Run
    decreases |attempts|
  {
    if attempts == [] then Run(c, [])
    else
      var a := attempts[0];
      var o := Send(serialize, c, a.req, a.now, a.writeOk);
      var rest := SendSeries(serialize, o.conn, attempts[1..]);
      Run(rest.conn, (if o.written.Success? then [c.seqNo + 1] else []) + rest.written)
  }

  /** One send, seen from the run: numbers never go back, entries are never lost,
      and a written frame's number is fresh and now in the ledger. */
  lemma SendStep(serialize: Payload -> bytes, c: Conn, a: Attempt)
    requires Inv(c)
    ensures var o := Send(serialize, c, a.req, a.now, a.writeOk);
      && Inv(o.conn)
      && o.conn.seqNo >= c.seqNo
      && c.sent.Keys <= o.conn.sent.Keys
      && (o.written.Success? ==>
            0 <= c.seqNo + 1 == o.conn.seqNo < MAX_PUSHES_PER_CONNECTION
            && c.seqNo + 1 in o.conn.sent && c.seqNo + 1 !in c.sent)
  {
    var o := Send(serialize, c, a.req, a.now, a.writeOk);
    SendRefused(serialize, c, a.req, a.now, a.writeOk, o);
    SendWrites(serialize, c, a.req, a.now, a.writeOk, o);
  }

  /** What a run of sends from `c` keeps: the invariant, numbers that never go
      back, no lost ledger entry, and written numbers that strictly increase, lie
      above every number issued before the run and below 2^31, and are fresh
      entries of the final ledger. */
  predicate RunFacts(c: Conn, run: Run) {
    && Inv(run.conn)
    && run.conn.seqNo >= c.seqNo
    && c.sent.Keys <= run.conn.sent.Keys
    && Ascending(run.written)
    && (forall k :: k in run.written ==> c.seqNo < k <= run.conn.seqNo && k < MAX_PUSHES_PER_CONNECTION)
    && (forall k :: k in run.written ==> k in run.conn.sent && k !in c.sent)
  }

  /** Across any run of sends, the sequence numbers written strictly increase, so
      none repeats; each lies above every number issued before the run and below
      2^31; each is in the ledger afterwards and was not in it before; no entry
      is lost; and the invariant holds at the end. */
  lemma {:induction false} SendSeriesNumbers(serialize: Payload -> bytes, c: Conn, attempts: seq<Attempt>)
    requires Inv(c)
    ensures RunFacts(c, SendSeries(serialize, c, attempts))
    decreases |attempts|
  {
    if attempts != [] {
      var a := attempts[0];
      var o := Send(serialize, c, a.req, a.now, a.writeOk);
      SendStep(serialize, c, a);
      SendSeriesNumbers(serialize, o.conn, attempts[1..]);
      var rest := SendSeries(serialize, o.conn, attempts[1..]);
      var first := if o.written.Success? then [c.seqNo + 1] else [];
      RunCons(c, o.conn, first, rest);
    }
  }

  /** The inductive step of `SendSeriesNumbers`: one send, then a run. */
  lemma RunCons(c: Conn, next: Conn, first: seq<nat>, rest: Run)
    requires Inv(c) && Inv(next) && next.seqNo >= c.seqNo && c.sent.Keys <= next.sent.Keys
    requires first == [] || (first == [c.seqNo + 1] && 0 <= c.seqNo + 1 == next.seqNo < MAX_PUSHES_PER_CONNECTION
                             && c.seqNo + 1 in next.sent && c.seqNo + 1 !in c.sent)
    requires RunFacts(next, rest)
    ensures RunFacts(c, Run(rest.conn, first + rest.written))
  {
    var w := first + rest.written;
    if first == [] {
      assert w == rest.written;
    } else {
      forall i, j | 0 <= i < j < |w|
        ensures w[i] < w[j]
      {
        assert w[j] == rest.written[j - 1] && w[j] in rest.written;
        if i > 0 {
          assert w[i] == rest.written[i - 1];
        }
      }
    }
  }

  /** A request `send` writes unchanged from a fresh enough connection: its
      serialized payload fits, its token fits a two-octet length, and it carries
      no expiration or priority. */
  predicate Plain(serialize: Payload -> bytes, r: SendRequest) {
    && |serialize(r.payload)| <= DEFAULT_MAX_LENGTH && |r.token| < TWO_16
    && r.expiration.None? && r.priority.None?
  }

  /** A plain request on a useable connection with room for another number is
      written, and the ledger gains exactly its entry. */
  lemma PlainSend(serialize: Payload -> bytes, c: Conn, r: SendRequest, now: nat)
    requires Plain(serialize, r)
    requires c.alive && c.useable && -1 <= c.seqNo && c.seqNo + 1 < MAX_PUSHES_PER_CONNECTION
    ensures var o := Send(serialize, c, r, now, true);
      && o.written.Success?
      && o.conn == c.(seqNo := c.seqNo + 1, sent := c.sent[c.seqNo + 1 := Entry(r, now)], lastPushSent := Some(now))
  {
  }

  /** Three plain pushes written by a new connection at one moment get sequence
      numbers 0, 1 and 2, and the ledger records each as requested. */
  lemma ThreeSends(serialize: Payload -> bytes, r1: SendRequest, r2: SendRequest, r3: SendRequest, now: nat)
    requires Plain(serialize, r1) && Plain(serialize, r2) && Plain(serialize, r3)
    ensures SendSeries(serialize, NewConnection,
                       [Attempt(r1, now, true), Attempt(r2, now, true), Attempt(r3, now, true)])
      == Run(Conn(2, true, true, map[0 := Entry(r1, now), 1 := Entry(r2, now), 2 := Entry(r3, now)], Some(now), None),
             [0, 1, 2])
  {
    var a := [Attempt(r1, now, true), Attempt(r2, now, true), Attempt(r3, now, true)];
    var c0 := NewConnection;
    PlainSend(serialize, c0, r1, now);
    var c1 := Send(serialize, c0, r1, now, true).conn;
    PlainSend(serialize, c1, r2, now);
    var c2 := Send(serialize, c1, r2, now, true).conn;
    PlainSend(serialize, c2, r3, now);
    var c3 := Send(serialize, c2, r3, now, true).conn;
    assert a[1..][1..][1..] == [];
    var s3 := SendSeries(serialize, c3, []);
    var s2 := SendSeries(serialize, c2, a[1..][1..]);
    assert s2 == Run(c3, [2]);
    var s1 := SendSeries(serialize, c1, a[1..]);
    assert s1 == Run(c3, [1, 2]);
    assert SendSeries(serialize, c0, a) == Run(c3, [0, 1, 2]);
  }

  /** A prune of a ledger written entirely at the moment of the prune forgets
      only the entries below the cutoff. */
  lemma PruneFresh(sent: SentMap, now: nat, lastFailedSeq: Option<nat>, order: seq<nat>)
    requires IsEnumeration(order, sent.Keys)
    requires forall k :: k in sent ==> sent[k].sendTs == now
    ensures PruneSent(sent, now, lastFailedSeq, order)
      == Success(map k | k in sent && !BelowCutoff(k, lastFailedSeq) :: sent[k])
  {
    var p := PruneSent(sent, now, lastFailedSeq, order);
    var kept := map k | k in sent && !BelowCutoff(k, lastFailedSeq) :: sent[k];
    assert forall k :: k in sent ==> !Expired(sent[k], now);
    assert p.Success?;
    assert p.value.Keys == kept.Keys;
    assert forall k :: k in kept ==> p.value[k] == kept[k];
    assert p.value == kept;
  }

  /** The ledger entry a written request leaves. */
  function Entry(r: SendRequest, now: nat): SentMessage {
    SentMessage(now, r.token, r.payload, r.expiration, r.priority, r.identifier)
  }

  /** The retry scenario: three plain pushes are written by a new connection at
      one moment (see `ThreeSends`), and the gateway then reports status 10
      (shutdown) for the second. Nobody is told of a failure, and the second and
      third pushes are handed back to `send`, in that order, exactly as first
      requested; only the third stays in the ledger. */
  lemma RetryAfterShutdown(r1: SendRequest, r2: SendRequest, r3: SendRequest, now: nat, callbackSet: bool)
    requires r1.expiration.None? && r1.priority.None?
    requires r2.expiration.None? && r2.priority.None?
    requires r3.expiration.None? && r3.priority.None?
    ensures var c := Conn(2, true, true, map[0 := Entry(r1, now), 1 := Entry(r2, now), 2 := Entry(r3, now)], Some(now), None);
      HandleReport(c, [COMMAND_ERROR, 10] + U32(1), now, [0, 1, 2], callbackSet)
      == Success(Resolution(Conn(2, true, false, map[2 := Entry(r3, now)], Some(now), Some(1)), None, [r2, r3]))
  {
    var e1, e2, e3 := Entry(r1, now), Entry(r2, now), Entry(r3, now);
    var c := Conn(2, true, true, map[0 := e1, 1 := e2, 2 := e3], Some(now), None);
    var buf: bytes := [COMMAND_ERROR, 10] + U32(1);
    assert DecodeErrorFrame(buf) == ErrorFrame(COMMAND_ERROR, 10, 1) by {
      ErrorFrameRoundTrip(ErrorFrame(COMMAND_ERROR, 10, 1));
    }
    var pruned := map[1 := e2, 2 := e3];
    assert c.sent.Keys == {0, 1, 2};
    PruneFresh(c.sent, now, Some(1), [0, 1, 2]);
    assert (map k | k in c.sent && !BelowCutoff(k, Some(1)) :: c.sent[k]) == pruned;
    RetryResolution(e2, e3, now, callbackSet);
  }

  /** The second half of the retry scenario: the pruned ledger resolved. */
  lemma RetryResolution(e2: SentMessage, e3: SentMessage, now: nat, callbackSet: bool)
    ensures Resolve(Conn(2, true, true, map[1 := e2, 2 := e3], Some(now), Some(1)), 10, 1, [0, 1, 2], callbackSet)
      == Resolution(Conn(2, true, false, map[2 := e3], Some(now), Some(1)), None, [ResendOf(e2), ResendOf(e3)])
  {
    var rest := map[2 := e3];
    assert map[1 := e2, 2 := e3] - {1} == rest;
    assert InOrder([0, 1, 2], rest) == [2] by {
      assert InOrder([2], rest) == [2];
      assert [1, 2][1..] == [2];
      assert [0, 1, 2][1..] == [1, 2];
    }
    assert StatusOf(10) == Shutdown;
  }

  /** The failure scenario: a push carrying an identifier is written by a new
      connection and the gateway reports status 8 (invalid token) for it. The
      registered callback receives the push's token, its identifier and the
      status, and nothing is resent. */
  lemma FailureReported(serialize: Payload -> bytes, r1: SendRequest, now: nat)
    requires Plain(serialize, r1)
    ensures var c := Send(serialize, NewConnection, r1, now, true).conn;
      HandleReport(c, [COMMAND_ERROR, 8] + U32(0), now, [0], true)
      == Success(Resolution(Retire(c).(sent := map[], lastFailedSeq := Some(0)),
                            Some(Callback(r1.token, r1.identifier, 8)), []))
  {
    var o := Send(serialize, NewConnection, r1, now, true);
    assert o.written.Success?;
    var c := o.conn;
    var buf: bytes := [COMMAND_ERROR, 8] + U32(0);
    assert DecodeErrorFrame(buf) == ErrorFrame(COMMAND_ERROR, 8, 0) by {
      ErrorFrameRoundTrip(ErrorFrame(COMMAND_ERROR, 8, 0));
    }
    assert PruneSent(c.sent, now, Some(0), [0]).value == c.sent;
    assert StatusOf(8) == InvalidToken;
    assert c.sent - {0} == map[];
    assert InOrder([0], map[]) == [];
  }

  /** A report with an unknown command closes the connection, yet the push it
      names is still resolved: here its callback fires. */
  lemma UnknownCommandStillResolves(serialize: Payload -> bytes, r1: SendRequest, now: nat)
    requires Plain(serialize, r1)
    ensures var c := Send(serialize, NewConnection, r1, now, true).conn;
      var r := HandleReport(c, [7, 8] + U32(0), now, [0], true);
      && r.Success? && !r.value.conn.alive
      && r.value.callback == Some(Callback(r1.token, r1.identifier, 8))
  {
    var o := Send(serialize, NewConnection, r1, now, true);
    assert o.written.Success?;
    var c := o.conn;
    assert DecodeErrorFrame([7, 8] + U32(0)) == ErrorFrame(7, 8, 0) by {
      ErrorFrameRoundTrip(ErrorFrame(7, 8, 0));
    }
    assert PruneSent(c.sent, now, Some(0), [0]).value == c.sent;
    assert StatusOf(8) == InvalidToken;
  }

  /** A `KeyError` in the prune that starts `_push_failed` ends the reader before
      the connection is retired: it stays alive and useable, and a plain push on
      it is still written and recorded, though no reader is left to hear of its
      failure. */
  lemma HaltedConnectionStillSends(serialize: Payload -> bytes, c: Conn, status: byte, failedSeq: nat,
                                   now: nat, order: seq<nat>, callbackSet: bool, req: SendRequest)
    requires IsEnumeration(order, c.sent.Keys) && Inv(c)
    requires c.useable && c.seqNo + 1 < MAX_PUSHES_PER_CONNECTION
    requires PushFailed(c, status, failedSeq, now, order, callbackSet).Failure?
    requires Plain(serialize, req)
    ensures var h := PushFailed(c, status, failedSeq, now, order, callbackSet).error.conn;
      && h.alive && h.useable
      && Send(serialize, h, req, now, true).written.Success?
      && h.seqNo + 1 in Send(serialize, h, req, now, true).conn.sent
  {
    var h := PushFailed(c, status, failedSeq, now, order, callbackSet).error.conn;
    PlainSend(serialize, h, req, now);
  }

  /** Because a resend swaps priority and expiration, a push the connection wrote
      with priority 10 and expiration 1000 comes back asking for priority 1000,
      which does not fit its one octet: the resent push cannot be framed. */
  lemma SwappedResendUnframeable(token: bytes, body: bytes, m: SentMessage, seqNo: nat)
    requires |token| < TWO_16 && |body| < TWO_16 && seqNo < TWO_32
    requires m.expiration == Some(1000) && m.priority == Some(10)
    ensures BuildFrame(token, body, seqNo, m.expiration, m.priority).Success?
    ensures var r := ResendOf(m);
      BuildFrame(token, body, seqNo, r.expiration, r.priority).Failure?
  {
  }
}

=== FILE: feedback.dfy ===
/** The feedback service's record stream and `FeedbackConnection.get_all`.
    Each record is a four-octet timestamp, a two-octet token length and the
    token, all big-endian; the stream has no other framing. The reader takes
    whole records until the stream ends, drops a record the end cuts short, and
    decides from the way the stream ended whether to return what it has or to
    raise. */
module Feedback {
  import opened Results
  import opened Bytes

  const HEADER_LENGTH: int := 6

  /** A four-octet unsigned field, and a token short enough for a two-octet length. */
  type u32 = n: nat | n < TWO_32
  type Token = t: bytes | |t| < TWO_16

  /** One record: a device token the service reports, and when it did. */
  datatype FeedbackItem = FeedbackItem(token: Token, timestamp: u32)

  /** How the stream ended: `recv` returned '' (the loop leaves normally), the
      peer reset the connection (a socket error with `ECONNRESET`), or any other
      socket or TLS error. */
  datatype StreamEnd = CleanEof | ConnReset | OtherError

  /** The octets of one record. */
  function EncodeRecord(item: FeedbackItem): (r: bytes)
    ensures |r| == HEADER_LENGTH + |item.token|
  {
    U32(item.timestamp) + U16(|item.token|) + item.token
  }

  function EncodeRecords(items: seq<FeedbackItem>): (r: bytes)
  {
    if items == [] then [] else EncodeRecord(items[0]) + EncodeRecords(items[1..])
  }

  /** The whole records at the front of `b`, in order. A header or token that
      the end of `b` cuts short ends the list, and the octets after it are never
      looked at. */
  function Records(b: bytes): (r: seq<FeedbackItem>)
    ensures |b| < HEADER_LENGTH ==> r == []
    ensures |r| * HEADER_LENGTH <= |b|
    decreases |b|
  {
    if |b| < HEADER_LENGTH then []
    else
      var ts := ReadU32(b[..4]);
      var len := ReadU16(b[4..6]);
      if |b| - HEADER_LENGTH < len then []
      else [FeedbackItem(b[6..6 + len], ts)] + Records(b[6 + len..])
  }

  /** Reading one record back. */
  lemma RecordsStep(item: FeedbackItem, rest: bytes)
    ensures Records(EncodeRecord(item) + rest) == [item] + Records(rest)
  {
    var b := EncodeRecord(item) + rest;
    var len := |item.token|;
    assert b[..4] == U32(item.timestamp);
    assert b[4..6] == U16(len);
    U32RoundTrip(item.timestamp);
    U16RoundTrip(len);
    assert b[6..6 + len] == item.token;
    assert b[6 + len..] == rest;
  }

  /** Whole records followed by anything parse as those records followed by
      whatever the rest parses as. */
  lemma {:induction false} RecordsAppend(items: seq<FeedbackItem>, rest: bytes)
    ensures Records(EncodeRecords(items) + rest) == items + Records(rest)
    decreases |items|
  {
    if items == [] {
      assert EncodeRecords(items) + rest == rest;
    } else {
      RecordsAppend(items[1..], rest);
      RecordsCons(items, rest);
    }
  }

  /** The inductive step of `RecordsAppend`. */
  lemma RecordsCons(items: seq<FeedbackItem>, rest: bytes)
    requires items != []
    requires Records(EncodeRecords(items[1..]) + rest) == items[1..] + Records(rest)
    ensures Records(EncodeRecords(items) + rest) == items + Records(rest)
  {
    var more := EncodeRecords(items[1..]) + rest;
    EncodeRecordsCons(items, rest);
    RecordsStep(items[0], more);
    ConsAppend(items, Records(rest));
  }

  lemma EncodeRecordsCons(items: seq<FeedbackItem>, rest: bytes)
    requires items != []
    ensures EncodeRecords(items) + rest == EncodeRecord(items[0]) + (EncodeRecords(items[1..]) + rest)
  {
  }

  lemma ConsAppend<T>(s: seq<T>, t: seq<T>)
    requires s != []
    ensures s + t == [s[0]] + (s[1..] + t)
  {
  }

  /** The parser inverts the encoder. */
  lemma {:induction false} RecordsRoundTrip(items: seq<FeedbackItem>)
    ensures Records(EncodeRecords(items)) == items
  {
    RecordsAppend(items, []);
    assert EncodeRecords(items) + [] == EncodeRecords(items);
  }

  /** A record the end of the stream cuts short yields nothing. */
  lemma PartialRecordDropped(item: FeedbackItem, n: nat)
    requires n < |EncodeRecord(item)|
    ensures Records(EncodeRecord(item)[..n]) == []
  {
    var b := EncodeRecord(item)[..n];
    if n >= HEADER_LENGTH {
      assert b[4..6] == U16(|item.token|);
      U16RoundTrip(|item.token|);
    }
  }

  /** Every list of records the parser can produce is the parse of its own
      encoding, and that encoding is how the octets begin: the parser reports
      exactly the records it consumed. */
  lemma {:induction false} RecordsPrefix(b: bytes)
    ensures var e := EncodeRecords(Records(b)); |e| <= |b| && b[..|e|] == e
    decreases |b|
  {
    if |b| >= HEADER_LENGTH && |b| - HEADER_LENGTH >= ReadU16(b[4..6]) {
      var len := ReadU16(b[4..6]);
      var item := FeedbackItem(b[6..6 + len], ReadU32(b[..4]));
      var tail := b[6 + len..];
      RecordsPrefix(tail);
      RecordsHead(b);
      HeadRecord(b);
      EncodeRecordsCons(Records(b), []);
      assert Records(b)[1..] == Records(tail);
      PrefixCons(b, 6 + len, EncodeRecord(item), EncodeRecords(Records(tail)));
    }
  }

  /** The first record of `b`, when it is whole. */
  lemma RecordsHead(b: bytes)
    requires |b| >= HEADER_LENGTH && |b| - HEADER_LENGTH >= ReadU16(b[4..6])
    ensures var len := ReadU16(b[4..6]);
      Records(b) == [FeedbackItem(b[6..6 + len], ReadU32(b[..4]))] + Records(b[6 + len..])
  {
  }

  /** A record parsed from the front of `b` re-encodes to the octets it was read from. */
  lemma HeadRecord(b: bytes)
    requires |b| >= HEADER_LENGTH && |b| - HEADER_LENGTH >= ReadU16(b[4..6])
    ensures var len := ReadU16(b[4..6]);
      EncodeRecord(FeedbackItem(b[6..6 + len], ReadU32(b[..4]))) == b[..6 + len]
  {
    var len := ReadU16(b[4..6]);
    var r := b[..6 + len];
    assert r[..4] == b[..4] && r[4..6] == b[4..6] && r[6..] == b[6..6 + len];
    HeaderInverse(r, len);
  }

  /** The octets of one whole record re-encode to themselves. */
  lemma HeaderInverse(r: bytes, len: nat)
    requires |r| >= HEADER_LENGTH && len == ReadU16(r[4..6]) && |r| == HEADER_LENGTH + len
    ensures EncodeRecord(FeedbackItem(r[6..], ReadU32(r[..4]))) == r
  {
    ReadU32Inverse(r[..4]);
    ReadU16Inverse(r[4..6]);
    assert r == r[..4] + r[4..6] + r[6..];
  }

  lemma PrefixCons(b: bytes, n: nat, x: bytes, y: bytes)
    requires n <= |b| && x == b[..n]
    requires |y| <= |b[n..]| && b[n..][..|y|] == y
    ensures |x + y| <= |b| && b[..|x + y|] == x + y
  {
    assert b[..|x + y|] == b[..n] + b[n..][..|y|];
  }

  /** The reading loop of `get_all`: take a six-octet header, then the token it
      announces, append the record, and go on until the octets run out. */
  method CollectRecords(data: bytes) returns (feedback: seq<FeedbackItem>)
    ensures feedback == Records(data)
  {
    feedback := [];
    var unread := data;
    while true
      invariant feedback + Records(unread) == Records(data)
      decreases |unread|
    {
      if |unread| < HEADER_LENGTH {
        break;
      }
      var ts := ReadU32(unread[..4]);
      var len := ReadU16(unread[4..6]);
      if |unread| - HEADER_LENGTH < len {
        break;
      }
      var item := FeedbackItem(unread[6..6 + len], ts);
      ghost var before := unread;
      unread := unread[6 + len..];
      assert Records(before) == [item] + Records(unread);
      feedback := feedback + [item];
    }
  }

  /** `get_all` once the stream has delivered `data` and ended as `end`. A clean
      end or a reset returns the whole records read; any other error raises
      when no record was read and otherwise returns the records, since they
      would not be sent again. */
  function GetAll(data: bytes, end: StreamEnd): (r: Result<seq<FeedbackItem>, StreamEnd>)
    ensures r.Failure? <==> end == OtherError && Records(data) == []
    ensures r.Failure? ==> r.error == OtherError
    ensures r.Success? ==> r.value == Records(data)
  {
    var feedback := Records(data);
    if end == OtherError && |feedback| == 0 then Failure(OtherError) else Success(feedback)
  }

  /** A feed that starts with whole records returns them in full, followed by
      whatever the rest holds, however the stream ends. */
  lemma {:induction false} GetAllWholeRecords(items: seq<FeedbackItem>, junk: bytes, end: StreamEnd)
    requires items != []
    ensures GetAll(EncodeRecords(items) + junk, end).Success?
    ensures GetAll(EncodeRecords(items) + junk, end).value == items + Records(junk)
  {
    RecordsAppend(items, junk);
  }
}

=== FILE: frames.dfy ===
/** The binary wire format of the push gateway: the outbound notification frame
    `command:u8=2 | length:u32 | items`, each item `id:u8 | length:u16 | data`,
    and the fixed six-octet inbound error report `command:u8=8 | status:u8 | seqNo:u32`.

    `ParseFrame` is a reference decoder for the outbound frame, following the
    parser of the dummy gateway in the connection tests; the encoder is proved
    to be its left inverse. */
module Frames {
  import opened Results
  import opened Bytes

  const COMMAND_SENDPUSH: byte := 2
  const COMMAND_ERROR: byte := 8

  const ITEM_DEVICE_TOKEN: byte := 1
  const ITEM_PAYLOAD: byte := 2
  const ITEM_IDENTIFIER: byte := 3
  const ITEM_EXPIRATION: byte := 4
  const ITEM_PRIORITY: byte := 5

  /** `struct.pack` refused a value: a number out of range for its field, a
      variable-length item of 2^16 octets or more, or a value of the wrong kind. */
  datatype EncodeError = StructError

  /** What the caller hands `_apns_item`: raw octets or a number to be packed. */
  datatype ItemValue = RawData(data: bytes) | Number(n: int)

  datatype RawItem = RawItem(id: byte, data: bytes)

  /** Python truthiness of an optional number: `None` and `0` are both false. */
  predicate Truthy(o: Option<int>) {
    o.Some? && o.value != 0
  }

  /** The data part of `_apns_item`: identifier and expiration as four octets,
      priority as one, anything else passed through raw. The item's length field
      must fit sixteen bits. */
  function PackItem(itemId: byte, v: ItemValue): (r: Result<RawItem, EncodeError>)
    ensures r.Success? ==> r.value.id == itemId && |r.value.data| < TWO_16
    ensures r.Success? && (itemId == ITEM_IDENTIFIER || itemId == ITEM_EXPIRATION) ==>
      v.Number? && |r.value.data| == 4 && ReadU32(r.value.data) == v.n
    ensures r.Success? && itemId == ITEM_PRIORITY ==> v.Number? && r.value.data == [v.n]
    ensures r.Success? && itemId !in {ITEM_IDENTIFIER, ITEM_EXPIRATION, ITEM_PRIORITY} ==>
      v == RawData(r.value.data)
    ensures r.Failure? <==>
      if itemId == ITEM_IDENTIFIER || itemId == ITEM_EXPIRATION then !(v.Number? && 0 <= v.n < TWO_32)
      else if itemId == ITEM_PRIORITY then !(v.Number? && 0 <= v.n < 0x100)
      else !(v.RawData? && |v.data| < TWO_16)
  {
    if itemId == ITEM_IDENTIFIER || itemId == ITEM_EXPIRATION then
      if v.Number? && 0 <= v.n < TWO_32 then
        U32RoundTrip(v.n);
        Success(RawItem(itemId, U32(v.n)))
      else Failure(StructError)
    else if itemId == ITEM_PRIORITY then
      if v.Number? && 0 <= v.n < 0x100 then Success(RawItem(itemId, [v.n])) else Failure(StructError)
    else if v.RawData? && |v.data| < TWO_16 then Success(RawItem(itemId, v.data))
    else Failure(StructError)
  }

  /** The octets of one item: id, big-endian data length, data. */
  function ItemBytes(item: RawItem): (r: bytes)
    requires |item.data| < TWO_16
    ensures |r| == 3 + |item.data|
  {
    [item.id] + U16(|item.data|) + item.data
  }

  predicate Encodable(items: seq<RawItem>) {
    forall i :: 0 <= i < |items| ==> |items[i].data| < TWO_16
  }

  function SerializeItems(items: seq<RawItem>): (r: bytes)
    requires Encodable(items)
    ensures |r| <= |items| * (3 + TWO_16)
  {
    if items == [] then [] else ItemBytes(items[0]) + SerializeItems(items[1..])
  }

  /** Splits an item block back into items; `None` if it ends inside an item. */
  function ParseItems(block: bytes): Option<seq<RawItem>>
    decreases |block|
  {
    if block == [] then Some([])
    else if |block| < 3 then None
    else
      var n := ReadU16(block[1..3]);
      if |block| - 3 < n then None
      else match ParseItems(block[3 + n..])
        case None => None
        case Some(rest) => Some([RawItem(block[0], block[3..3 + n])] + rest)
  }

  /** Item parsing inverts item serialisation. */
  lemma {:induction false} ParseSerializeItems(items: seq<RawItem>)
    requires Encodable(items)
    ensures ParseItems(SerializeItems(items)) == Some(items)
  {
    if items != [] {
      var head := items[0];
      var b := SerializeItems(items);
      var n := |head.data|;
      assert b[1..3] == U16(n);
      U16RoundTrip(n);
      assert b[3..3 + n] == head.data;
      assert b[3 + n..] == SerializeItems(items[1..]);
      ParseSerializeItems(items[1..]);
      assert [head] + items[1..] == items;
    }
  }

  /** The fields the dummy gateway recovers from a notification frame. */
  datatype Push = Push(
    token: Option<bytes>,
    payload: Option<bytes>,
    rawId: Option<bytes>,
    expiration: Option<int>,
    priority: Option<int>)

  const NoFields := Push(None, None, None, None, None)

  /** Folds items into the recovered fields; a later item of the same id wins,
      unknown ids are skipped, and a numeric item of the wrong size is an error. */
  function CollectFields(items: seq<RawItem>, acc: Push): Option<Push>
  {
    if items == [] then Some(acc)
    else
      var it := items[0];
      if it.id == ITEM_DEVICE_TOKEN then CollectFields(items[1..], acc.(token := Some(it.data)))
      else if it.id == ITEM_PAYLOAD then CollectFields(items[1..], acc.(payload := Some(it.data)))
      else if it.id == ITEM_IDENTIFIER then CollectFields(items[1..], acc.(rawId := Some(it.data)))
      else if it.id == ITEM_EXPIRATION then
        if |it.data| != 4 then None else CollectFields(items[1..], acc.(expiration := Some(ReadU32(it.data))))
      else if it.id == ITEM_PRIORITY then
        if |it.data| != 1 then None else CollectFields(items[1..], acc.(priority := Some(it.data[0])))
      else CollectFields(items[1..], acc)
  }

  /** Reads one whole notification frame. */
  function ParseFrame(frame: bytes): Option<Push>
  {
    if |frame| < 5 || frame[0] != COMMAND_SENDPUSH then None
    else if ReadU32(frame[1..5]) != |frame| - 5 then None
    else match ParseItems(frame[5..])
      case None => None
      case Some(items) => CollectFields(items, NoFields)
  }

  /** The items `send` writes, in order: token, payload, identifier, then the
      expiration and the priority only when they are truthy. */
  function FrameFields(token: bytes, payload: bytes, seqNo: int, expiration: Option<int>, priority: Option<int>)
    : seq<(byte, ItemValue)>
  {
    [(ITEM_DEVICE_TOKEN, RawData(token)), (ITEM_PAYLOAD, RawData(payload)), (ITEM_IDENTIFIER, Number(seqNo))]
    + (if Truthy(expiration) then [(ITEM_EXPIRATION, Number(expiration.value))] else [])
    + (if Truthy(priority) then [(ITEM_PRIORITY, Number(priority.value))] else [])
  }

  /** The packed items of a frame, in the order `send` writes them: token and
      payload as given, the sequence number in four big-endian octets, then the
      expiration in four octets and the priority in one, each only when truthy. */
  function FrameItems(token: bytes, payload: bytes, seqNo: int, expiration: Option<int>, priority: Option<int>)
    : seq<RawItem>
    requires 0 <= seqNo < TWO_32
    requires Truthy(expiration) ==> 0 <= expiration.value < TWO_32
    requires Truthy(priority) ==> 0 <= priority.value < 0x100
  {
    [RawItem(ITEM_DEVICE_TOKEN, token), RawItem(ITEM_PAYLOAD, payload), RawItem(ITEM_IDENTIFIER, U32(seqNo))]
    + (if Truthy(expiration) then [RawItem(ITEM_EXPIRATION, U32(expiration.value))] else [])
    + (if Truthy(priority) then [RawItem(ITEM_PRIORITY, [priority.value])] else [])
  }

  /** Packs each field with `PackItem`, failing on the first field it refuses. */
  function PackFields(fields: seq<(byte, ItemValue)>): (r: Result<seq<RawItem>, EncodeError>)
    ensures r.Success? ==> Encodable(r.value) && |r.value| == |fields|
    ensures r.Success? <==> forall i :: 0 <= i < |fields| ==> PackItem(fields[i].0, fields[i].1).Success?
    ensures r.Success? ==> forall i :: 0 <= i < |fields| ==> PackItem(fields[i].0, fields[i].1) == Success(r.value[i])
  {
    if fields == [] then Success([])
    else
      var head :- PackItem(fields[0].0, fields[0].1);
      var tail :- PackFields(fields[1..]);
      Success([head] + tail)
  }

  /** What a correctly framed push with these arguments carries. */
  function ExpectedPush(token: bytes, payload: bytes, seqNo: int, expiration: Option<int>, priority: Option<int>): Push
    requires 0 <= seqNo < TWO_32
  {
    Push(Some(token), Some(payload), Some(U32(seqNo)),
         if Truthy(expiration) then expiration else None,
         if Truthy(priority) then priority else None)
  }

  /** The frame `send` writes. It is built exactly when every field is in range,
      its length field counts the item block, and the gateway's parser recovers
      every field from it (an expiration or priority of 0 is not sent).
      `BuildFrameItems` fixes the order of its items. */
  function BuildFrame(token: bytes, payload: bytes, seqNo: int, expiration: Option<int>, priority: Option<int>)
    : (r: Result<bytes, EncodeError>)
    ensures r.Success? <==>
      && |token| < TWO_16 && |payload| < TWO_16 && 0 <= seqNo < TWO_32
      && (Truthy(expiration) ==> 0 <= expiration.value < TWO_32)
      && (Truthy(priority) ==> 0 <= priority.value < 0x100)
    ensures r.Success? ==>
      (|r.value| >= 5 && r.value[0] == COMMAND_SENDPUSH && ReadU32(r.value[1..5]) == |r.value| - 5)
    ensures r.Success? ==> ParseFrame(r.value) == Some(ExpectedPush(token, payload, seqNo, expiration, priority))
  {
    FrameFieldsPackable(token, payload, seqNo, expiration, priority);
    var raws :- PackFields(FrameFields(token, payload, seqNo, expiration, priority));
    var items := SerializeItems(raws);
    assert |items| < TWO_32;
    var frame := [COMMAND_SENDPUSH] + U32(|items|) + items;
    FrameFieldsPackable(token, payload, seqNo, expiration, priority);
    FrameRoundTrip(token, payload, seqNo, expiration, priority, raws, frame);
    Success(frame)
  }

  /** Whenever the fields are in range, the frame is built, and its item block
      holds exactly the items of `FrameItems`, in that order: none is reordered,
      repeated or added. */
  lemma BuildFrameItems(token: bytes, payload: bytes, seqNo: int, expiration: Option<int>, priority: Option<int>)
    requires |token| < TWO_16 && |payload| < TWO_16 && 0 <= seqNo < TWO_32
    requires Truthy(expiration) ==> 0 <= expiration.value < TWO_32
    requires Truthy(priority) ==> 0 <= priority.value < 0x100
    ensures BuildFrame(token, payload, seqNo, expiration, priority).Success?
    ensures ParseItems(BuildFrame(token, payload, seqNo, expiration, priority).value[5..])
            == Some(FrameItems(token, payload, seqNo, expiration, priority))
  {
    var fields := FrameFields(token, payload, seqNo, expiration, priority);
    var items := FrameItems(token, payload, seqNo, expiration, priority);
    FrameFieldsPackable(token, payload, seqNo, expiration, priority);
    var raws := PackFields(fields).value;
    assert |raws| == |items|;
    forall i | 0 <= i < |items|
      ensures raws[i] == items[i]
    {
      assert PackItem(fields[i].0, fields[i].1) == Success(raws[i]);
      if fields[i].0 == ITEM_IDENTIFIER || fields[i].0 == ITEM_EXPIRATION {
        ReadU32Inverse(raws[i].data);
      }
    }
    assert raws == items;
    var frame := BuildFrame(token, payload, seqNo, expiration, priority).value;
    assert frame[5..] == SerializeItems(raws);
    ParseSerializeItems(raws);
  }

  /** Unfolds `CollectFields` by one item. */
  lemma CollectStep(items: seq<RawItem>, acc: Push)
    requires items != []
    ensures CollectFields(items, acc) ==
      var it := items[0];
      if it.id == ITEM_DEVICE_TOKEN then CollectFields(items[1..], acc.(token := Some(it.data)))
      else if it.id == ITEM_PAYLOAD then CollectFields(items[1..], acc.(payload := Some(it.data)))
      else if it.id == ITEM_IDENTIFIER then CollectFields(items[1..], acc.(rawId := Some(it.data)))
      else if it.id == ITEM_EXPIRATION then
        if |it.data| != 4 then None else CollectFields(items[1..], acc.(expiration := Some(ReadU32(it.data))))
      else if it.id == ITEM_PRIORITY then
        if |it.data| != 1 then None else CollectFields(items[1..], acc.(priority := Some(it.data[0])))
      else CollectFields(items[1..], acc)
  {
  }

  /** The fields `send` puts in a frame are all packable exactly when each is in range. */
  lemma FrameFieldsPackable(token: bytes, payload: bytes, seqNo: int, expiration: Option<int>, priority: Option<int>)
    ensures PackFields(FrameFields(token, payload, seqNo, expiration, priority)).Success? <==>
      && |token| < TWO_16 && |payload| < TWO_16 && 0 <= seqNo < TWO_32
      && (Truthy(expiration) ==> 0 <= expiration.value < TWO_32)
      && (Truthy(priority) ==> 0 <= priority.value < 0x100)
  {
    var fields := FrameFields(token, payload, seqNo, expiration, priority);
    assert fields[0] == (ITEM_DEVICE_TOKEN, RawData(token));
    assert fields[1] == (ITEM_PAYLOAD, RawData(payload));
    assert fields[2] == (ITEM_IDENTIFIER, Number(seqNo));
    if Truthy(expiration) {
      assert fields[3] == (ITEM_EXPIRATION, Number(expiration.value));
      if Truthy(priority) {
        assert fields[4] == (ITEM_PRIORITY, Number(priority.value));
      }
    } else if Truthy(priority) {
      assert fields[3] == (ITEM_PRIORITY, Number(priority.value));
    }
  }

  lemma FrameRoundTrip(token: bytes, payload: bytes, seqNo: int, expiration: Option<int>, priority: Option<int>,
                       raws: seq<RawItem>, frame: bytes)
    requires PackFields(FrameFields(token, payload, seqNo, expiration, priority)) == Success(raws)
    requires |SerializeItems(raws)| < TWO_32
    requires frame == [COMMAND_SENDPUSH] + U32(|SerializeItems(raws)|) + SerializeItems(raws)
    ensures 0 <= seqNo < TWO_32
    ensures ReadU32(frame[1..5]) == |frame| - 5
    ensures ParseFrame(frame) == Some(ExpectedPush(token, payload, seqNo, expiration, priority))
  {
    var fields := FrameFields(token, payload, seqNo, expiration, priority);
    FrameFieldsPackable(token, payload, seqNo, expiration, priority);
    var items := SerializeItems(raws);
    assert PackItem(fields[0].0, fields[0].1) == Success(raws[0]);
    assert PackItem(fields[1].0, fields[1].1) == Success(raws[1]);
    assert PackItem(fields[2].0, fields[2].1) == Success(raws[2]);
    assert raws[0] == RawItem(ITEM_DEVICE_TOKEN, token);
    assert raws[1] == RawItem(ITEM_PAYLOAD, payload);
    ReadU32Inverse(raws[2].data);
    assert raws[2] == RawItem(ITEM_IDENTIFIER, U32(seqNo));
    assert frame[1..5] == U32(|items|);
    U32RoundTrip(|items|);
    assert frame[5..] == items;
    ParseSerializeItems(raws);
    var acc1 := NoFields.(token := Some(token));
    var acc2 := acc1.(payload := Some(payload));
    var acc3 := acc2.(rawId := Some(U32(seqNo)));
    CollectStep(raws, NoFields);
    CollectStep(raws[1..], acc1);
    assert raws[1..][1..] == raws[2..];
    CollectStep(raws[2..], acc2);
    assert raws[2..][1..] == raws[3..];
    var tail := raws[3..];
    assert CollectFields(raws, NoFields) == CollectFields(tail, acc3);
    if Truthy(expiration) {
      assert PackItem(fields[3].0, fields[3].1) == Success(raws[3]);
      ReadU32Inverse(raws[3].data);
      var acc4 := acc3.(expiration := expiration);
      CollectStep(tail, acc3);
      assert CollectFields(tail, acc3) == CollectFields(tail[1..], acc4);
      if Truthy(priority) {
        assert PackItem(fields[4].0, fields[4].1) == Success(raws[4]);
        CollectStep(tail[1..], acc4);
        assert tail[1..][1..] == [];
      } else {
        assert tail[1..] == [];
      }
    } else if Truthy(priority) {
      assert PackItem(fields[3].0, fields[3].1) == Success(raws[3]);
      CollectStep(tail, acc3);
      assert tail[1..] == [];
    } else {
      assert tail == [];
    }
  }

  /** The six-octet report the gateway sends before closing the connection. */
  datatype ErrorFrame = ErrorFrame(command: byte, status: byte, seqNo: nat)

  function EncodeErrorFrame(f: ErrorFrame): (r: bytes)
    requires f.seqNo < TWO_32
    ensures |r| == 6
  {
    [f.command, f.status] + U32(f.seqNo)
  }

  /** `struct.unpack("!BBI", buf)`: any six octets decode, whatever the command,
      and the decoding is the unique frame that encodes to them. */
  function DecodeErrorFrame(buf: bytes): (r: ErrorFrame)
    requires |buf| == 6
    ensures r.seqNo < TWO_32
    ensures EncodeErrorFrame(r) == buf
  {
    ReadU32Inverse(buf[2..]);
    ErrorFrame(buf[0], buf[1], ReadU32(buf[2..]))
  }

  lemma ErrorFrameRoundTrip(f: ErrorFrame)
    requires f.seqNo < TWO_32
    ensures DecodeErrorFrame(EncodeErrorFrame(f)) == f
  {
    var b := EncodeErrorFrame(f);
    assert b[2..] == U32(f.seqNo);
    U32RoundTrip(f.seqNo);
  }

  /** The gateway's status codes. */
  datatype Status =
    | NoError | Processing | MissingToken | MissingTopic | MissingPayload
    | InvalidTokenSize | InvalidTopicSize | InvalidPayloadSize | InvalidToken
    | Shutdown | UnknownError | Unlisted(code: byte)

  function StatusOf(code: byte): Status {
    if code == 0 then NoError
    else if code == 1 then Processing
    else if code == 2 then MissingToken
    else if code == 3 then MissingTopic
    else if code == 4 then MissingPayload
    else if code == 5 then InvalidTokenSize
    else if code == 6 then InvalidTopicSize
    else if code == 7 then InvalidPayloadSize
    else if code == 8 then InvalidToken
    else if code == 10 then Shutdown
    else if code == 255 then UnknownError
    else Unlisted(code)
  }

  function StatusCode(s: Status): byte {
    match s
    case NoError => 0
    case Processing => 1
    case MissingToken => 2
    case MissingTopic => 3
    case MissingPayload => 4
    case InvalidTokenSize => 5
    case InvalidTopicSize => 6
    case InvalidPayloadSize => 7
    case InvalidToken => 8
    case Shutdown => 10
    case UnknownError => 255
    case Unlisted(c) => c
  }

  /** Status codes and statuses correspond one to one: every octet names exactly
      one status and the shutdown status is octet 10. */
  lemma StatusCodes(code: byte, s: Status)
    requires !s.Unlisted? || StatusOf(s.code).Unlisted?
    ensures StatusCode(StatusOf(code)) == code
    ensures StatusOf(StatusCode(s)) == s
    ensures StatusOf(code) == Shutdown <==> code == 10
  {
  }
}

=== FILE: ledger.dfy ===
/** The sent-message ledger of a push connection: what was written, keyed by
    sequence number, and `pruneSent`, which forgets entries old enough to be
    presumed delivered and entries below the last failed sequence number. */
module Ledger {
  import opened Results
  import opened Bytes
  import opened Aps

  /** Seconds after which an unreported push is presumed delivered. */
  const MAX_ERROR_WAIT_SEC: int := 60

  /** One written push: when it was written, and the arguments of `send`. The
      model stores the caller's payload as given; that the source's stored payload
      shares its nested alert dict with the truncated copy is left out. */
  datatype SentMessage = SentMessage(
    sendTs: nat,
    token: bytes,
    payload: Payload,
    expiration: Option<int>,
    priority: Option<int>,
    identifier: Option<string>)

  type SentMap = map<nat, SentMessage>

  /** `del self.sent[seq]` on a key that is already gone raises `KeyError`; the
      deletions made before it stay made, and `left` is the ledger they leave. */
  datatype PruneError = KeyError(key: nat, left: SentMap)

  predicate Expired(m: SentMessage, now: int) {
    m.sendTs < now - MAX_ERROR_WAIT_SEC
  }

  /** `self.last_failed_seq and seq < self.last_failed_seq`: a failed sequence
      number of 0 is falsy and cuts nothing off. */
  predicate BelowCutoff(k: nat, lastFailedSeq: Option<nat>) {
    lastFailedSeq.Some? && lastFailedSeq.value != 0 && k < lastFailedSeq.value
  }

  /** Both tests of `pruneSent` delete the entry, so an entry meeting both is
      deleted twice. */
  predicate DoublyDeleted(sent: SentMap, k: nat, now: int, lastFailedSeq: Option<nat>)
    requires k in sent
  {
    Expired(sent[k], now) && BelowCutoff(k, lastFailedSeq)
  }

  predicate NoDuplicates(s: seq<nat>) {
    forall i, j :: 0 <= i < j < |s| ==> s[i] != s[j]
  }

  /** `order` lists every key of the set exactly once: the order in which a
      Python dictionary with these keys is iterated. */
  predicate IsEnumeration(order: seq<nat>, keys: set<nat>) {
    && NoDuplicates(order)
    && (forall k :: k in order ==> k in keys)
    && (forall k :: k in keys ==> k in order)
  }

  /** The loop of `pruneSent` over the remaining `keys` of the snapshot taken by
      `self.sent.items()`, deleting from the live dictionary `cur`. */
  function PruneWalk(snapshot: SentMap, keys: seq<nat>, cur: SentMap, now: int, lastFailedSeq: Option<nat>)
    : (r: Result<SentMap, PruneError>)
    requires NoDuplicates(keys)
    requires forall k :: k in keys ==> k in snapshot && k in cur
    ensures r.Failure? <==> exists k :: k in keys && DoublyDeleted(snapshot, k, now, lastFailedSeq)
    ensures r.Failure? ==> r.error.key in keys && DoublyDeleted(snapshot, r.error.key, now, lastFailedSeq)
    ensures r.Failure? ==> r.error.key !in r.error.left
    ensures r.Failure? ==> forall k :: k in r.error.left ==> k in cur && r.error.left[k] == cur[k]
    ensures r.Failure? ==> forall k ::
      k in cur && k != r.error.key && !(k in keys && (Expired(snapshot[k], now) || BelowCutoff(k, lastFailedSeq)))
      ==> k in r.error.left
    ensures r.Success? ==> forall k :: k in r.value <==>
      (k in cur && !(k in keys && (Expired(snapshot[k], now) || BelowCutoff(k, lastFailedSeq))))
    ensures r.Success? ==> forall k :: k in r.value ==> r.value[k] == cur[k]
    decreases |keys|
  {
    if keys == [] then Success(cur)
    else
      var k := keys[0];
      var rest := keys[1..];
      assert forall i :: 0 <= i < |rest| ==> rest[i] == keys[i + 1];
      assert k !in rest;
      var afterAge := if Expired(snapshot[k], now) then cur - {k} else cur;
      if BelowCutoff(k, lastFailedSeq) then
        if k !in afterAge then
          assert DoublyDeleted(snapshot, k, now, lastFailedSeq);
          Failure(KeyError(k, afterAge))
        else
          assert !DoublyDeleted(snapshot, k, now, lastFailedSeq);
          PruneWalk(snapshot, rest, afterAge - {k}, now, lastFailedSeq)
      else
        assert !DoublyDeleted(snapshot, k, now, lastFailedSeq);
        PruneWalk(snapshot, rest, afterAge, now, lastFailedSeq)
  }

  /** `pruneSent` at time `now`, iterating the ledger in `order`. It raises
      `KeyError` exactly when some entry is both expired and below the cutoff;
      otherwise it keeps exactly the entries that are neither, unchanged. */
  function PruneSent(sent: SentMap, now: int, lastFailedSeq: Option<nat>, order: seq<nat>)
    : (r: Result<SentMap, PruneError>)
    requires IsEnumeration(order, sent.Keys)
    ensures r.Failure? <==> exists k :: k in sent && DoublyDeleted(sent, k, now, lastFailedSeq)
    ensures r.Success? ==> forall k :: k in r.value <==>
      (k in sent && !Expired(sent[k], now) && !BelowCutoff(k, lastFailedSeq))
    ensures r.Success? ==> forall k :: k in r.value ==> r.value[k] == sent[k]
    ensures r.Failure? ==> r.error.key in sent && r.error.key !in r.error.left
    ensures r.Failure? ==> forall k :: k in r.error.left ==> k in sent && r.error.left[k] == sent[k]
    ensures r.Failure? ==> forall k ::
      k in sent && k != r.error.key && !Expired(sent[k], now) && !BelowCutoff(k, lastFailedSeq)
      ==> k in r.error.left
  {
    PruneWalk(sent, order, sent, now, lastFailedSeq)
  }

  /** The double deletion is reachable: one entry written at time 0, a failure
      reported for sequence number 1, and a prune at time 61. The first `del`
      has already emptied the ledger when the second raises. */
  lemma PruneDoubleDelete()
    ensures var m := SentMessage(0, [], Payload(None, map[]), None, None, None);
      PruneSent(map[0 := m], 61, Some(1), [0]) == Failure(KeyError(0, map[]))
  {
  }
}

=== FILE: results.dfy ===
/** Failure-compatible wrappers used by every other module: an optional value and
    a value-or-error result, the typed counterparts of the source's `None` and of
    the exceptions it raises. */
module Results {

  datatype Option<+T> = None | Some(value: T)

  datatype Result<+T, +E> = Success(value: T) | Failure(error: E) {

    predicate IsFailure() {
      Failure?
    }

    function PropagateFailure<U>(): Result<U, E>
      requires Failure?
    {
      Failure(error)
    }

    function Extract(): T
      requires Success?
    {
      value
    }
  }
}

=== FILE: truncation.dfy ===
/** The payload truncator: while the serialised payload exceeds the byte budget,
    drop the last code point of the choppable field with the most UTF-8 octets
    (the earliest such field on a tie); give up with `BodyTooLong` when no
    choppable field has any octets left.

    The JSON serialiser is a parameter: the model only uses the length of its
    output, and never assumes more about it than each lemma states. */
module Truncation {
  import opened Results
  import opened Bytes
  import opened Utf8
  import opened Aps

  /** `max_length`'s default: 2048 octets. */
  const DEFAULT_MAX_LENGTH: int := 2048

  datatype TruncateError = BodyTooLong

  /** `is_too_long`. */
  predicate IsTooLong(serialize: Payload -> bytes, p: Payload, maxLength: int) {
    |serialize(p)| > maxLength
  }

  /** The UTF-8 length of each choppable field, in enumeration order. */
  function Lengths(p: Payload): (lens: seq<nat>)
    ensures |lens| == |Choppables(p)|
    ensures forall i :: 0 <= i < |lens| ==> lens[i] == ByteLength(Get(p, Choppables(p)[i]))
  {
    var cs := Choppables(p);
    seq(|cs|, i requires 0 <= i < |cs| => ByteLength(Get(p, cs[i])))
  }

  /** `k` indexes a positive maximum of `lens`, and no earlier entry reaches it. */
  predicate IsFirstLongest(lens: seq<nat>, k: nat) {
    && k < |lens|
    && lens[k] > 0
    && (forall j :: 0 <= j < |lens| ==> lens[j] <= lens[k])
    && (forall j :: 0 <= j < k ==> lens[j] < lens[k])
  }

  /** The loop of `_longest_choppable` from position `i` on, with the best index so
      far and its length: a later entry replaces the best only when strictly
      longer, and the best starts at length 0, so empty fields are never chosen. */
  function ScanLongest(lens: seq<nat>, i: nat, best: Option<nat>, bestLen: nat): (r: Option<nat>)
    requires i <= |lens|
    requires best.None? ==> bestLen == 0
    requires best.Some? ==> best.value < i && lens[best.value] == bestLen > 0
    requires best.Some? ==> forall j :: 0 <= j < best.value ==> lens[j] < bestLen
    requires forall j :: 0 <= j < i ==> lens[j] <= bestLen
    ensures r.None? <==> forall j :: 0 <= j < |lens| ==> lens[j] == 0
    ensures r.Some? ==> IsFirstLongest(lens, r.value)
    decreases |lens| - i
  {
    if i == |lens| then best
    else if lens[i] > bestLen then ScanLongest(lens, i + 1, Some(i), lens[i])
    else ScanLongest(lens, i + 1, best, bestLen)
  }

  /** `_longest_choppable`: `None` exactly when every choppable field is empty;
      otherwise a non-empty field of maximal UTF-8 length that comes no later in
      the enumeration than any other field of that length. */
  function LongestChoppable(p: Payload): (r: Option<Choppable>)
    ensures r.None? <==> forall c :: c in Choppables(p) ==> ByteLength(Get(p, c)) == 0
    ensures r.Some? ==> r.value in Choppables(p) && ByteLength(Get(p, r.value)) > 0
    ensures r.Some? ==> forall c :: c in Choppables(p) ==>
      ByteLength(Get(p, c)) <= ByteLength(Get(p, r.value))
    ensures r.Some? ==> forall c ::
      (c in Choppables(p) && ByteLength(Get(p, c)) == ByteLength(Get(p, r.value)))
      ==> Rank(r.value) <= Rank(c)
  {
    match ScanLongest(Lengths(p), 0, None, 0)
    case None =>
      ScanFoundNone(p);
      None
    case Some(k) =>
      ScanFoundSome(p, k);
      Some(Choppables(p)[k])
  }

  /** The scan finds nothing only when every choppable field is empty. */
  lemma ScanFoundNone(p: Payload)
    requires ScanLongest(Lengths(p), 0, None, 0).None?
    ensures forall c :: c in Choppables(p) ==> ByteLength(Get(p, c)) == 0
  {
    var cs := Choppables(p);
    var lens := Lengths(p);
    forall c | c in cs
      ensures ByteLength(Get(p, c)) == 0
    {
      var j :| 0 <= j < |cs| && cs[j] == c;
      assert lens[j] == 0;
    }
  }

  /** The field the scan finds is at least as long as every other, and earlier
      than any other of the same length. */
  lemma ScanFoundSome(p: Payload, k: nat)
    requires ScanLongest(Lengths(p), 0, None, 0) == Some(k)
    ensures k < |Choppables(p)| && ByteLength(Get(p, Choppables(p)[k])) > 0
    ensures forall c :: c in Choppables(p) ==>
      (ByteLength(Get(p, c)) <= ByteLength(Get(p, Choppables(p)[k]))
       && (ByteLength(Get(p, c)) == ByteLength(Get(p, Choppables(p)[k])) ==> Rank(Choppables(p)[k]) <= Rank(c)))
  {
    var cs := Choppables(p);
    var lens := Lengths(p);
    forall c | c in cs
      ensures ByteLength(Get(p, c)) <= lens[k]
      ensures ByteLength(Get(p, c)) == lens[k] ==> Rank(cs[k]) <= Rank(c)
    {
      var j :| 0 <= j < |cs| && cs[j] == c;
      assert lens[j] <= lens[k];
      if j < k {
        assert lens[j] < lens[k];
      }
    }
  }

  /** One step of the loop: `txt[:-1]` written back into field `c`. Exactly one
      trailing code point leaves that field, every other field keeps its text, and
      the total code-point count drops by one. */
  function Chop(p: Payload, c: Choppable): (r: Payload)
    requires Valid(p, c) && Get(p, c) != []
    ensures Valid(r, c)
    ensures var t := Get(p, c); Get(r, c) == t[..|t| - 1]
    ensures forall d :: Valid(r, d) <==> Valid(p, d)
    ensures forall d :: Valid(p, d) && d != c ==> Get(r, d) == Get(p, d)
    ensures Shortened(p, r)
    ensures CodePointCount(r) == CodePointCount(p) - 1
  {
    var t := Get(p, c);
    PutPrefixShortened(p, c, t[..|t| - 1]);
    PutCodePointCount(p, c, t[..|t| - 1]);
    Put(p, c, t[..|t| - 1])
  }

  /** `truncate(aps, max_length)`. On success the payload fits and differs from the
      input only by cutting choppable texts to prefixes; a payload that already fits
      comes back unchanged; `BodyTooLong` is reported only when the chopping has
      emptied every choppable field and the payload still does not fit. */
  function Truncate(serialize: Payload -> bytes, p: Payload, maxLength: int): (r: Result<Payload, TruncateError>)
    ensures r.Success? ==> !IsTooLong(serialize, r.value, maxLength)
    ensures r.Success? ==> Shortened(p, r.value)
    ensures r.Failure? ==> IsTooLong(serialize, Emptied(p), maxLength)
    ensures !IsTooLong(serialize, p, maxLength) ==> r == Success(p)
    decreases CodePointCount(p)
  {
    if !IsTooLong(serialize, p, maxLength) then
      ShortenedReflexive(p);
      Success(p)
    else
      match LongestChoppable(p)
      case None =>
        AllEmptyExhausted(p);
        ShortenedReflexive(p);
        ExhaustedIsEmptied(p, p);
        Failure(BodyTooLong)
      case Some(c) =>
        ByteLengthBounds(Get(p, c));
        var q := Chop(p, c);
        var r := Truncate(serialize, q, maxLength);
        ShortenedSameEmptied(p, q);
        if r.Success? then ShortenedTransitive(p, q, r.value); r else r
  }

  lemma AllEmptyExhausted(p: Payload)
    requires forall c :: c in Choppables(p) ==> ByteLength(Get(p, c)) == 0
    ensures Exhausted(p)
  {
    forall c | c in Choppables(p)
      ensures Get(p, c) == []
    {
      ByteLengthBounds(Get(p, c));
    }
  }

  /** Truncating a truncated payload changes nothing. */
  lemma TruncateIdempotent(serialize: Payload -> bytes, p: Payload, maxLength: int)
    requires Truncate(serialize, p, maxLength).Success?
    ensures Truncate(serialize, Truncate(serialize, p, maxLength).value, maxLength)
            == Truncate(serialize, p, maxLength)
  {
  }

  /** The serialiser never grows when choppable texts get shorter; true of a compact
      JSON encoder that writes text verbatim as UTF-8. */
  ghost predicate ShrinkMonotone(serialize: Payload -> bytes) {
    forall p, q :: Shortened(p, q) ==> |serialize(q)| <= |serialize(p)|
  }

  /** With such a serialiser, `BodyTooLong` is raised exactly when even the payload
      with every choppable field emptied would not fit. */
  lemma TruncateFailsIff(serialize: Payload -> bytes, p: Payload, maxLength: int)
    requires ShrinkMonotone(serialize)
    ensures Truncate(serialize, p, maxLength).Failure? <==> IsTooLong(serialize, Emptied(p), maxLength)
  {
    var r := Truncate(serialize, p, maxLength);
    if r.Success? && IsTooLong(serialize, Emptied(p), maxLength) {
      var q := r.value;
      ShortenedSameEmptied(p, q);
      assert false;
    }
  }
}

=== FILE: utf8.dfy ===
/** Text as a sequence of Unicode code points, and its UTF-8 encoding as computed by
    Python's `unicode.encode('utf8')`, one code point at a time. A lone surrogate
    takes three octets like any other code point below U+10000. Python 2 joins a
    high surrogate followed by a low one into a single four-octet sequence; this
    encoder does not, and encodes each half in three octets. */
module Utf8 {
  import opened Bytes
  import opened Results

  const MAX_CODE_POINT: int := 0x10_FFFF

  type CodePoint = c: int | 0 <= c <= MAX_CODE_POINT
  type Text = seq<CodePoint>

  /** Number of octets UTF-8 spends on one code point. */
  function Width(c: CodePoint): (w: nat)
    ensures 1 <= w <= 4
  {
    if c < 0x80 then 1
    else if c < 0x800 then 2
    else if c < 0x1_0000 then 3
    else 4
  }

  /** The UTF-8 octets of one code point: a lead octet carrying the high bits and
      continuation octets `10xxxxxx` carrying six bits each. */
  function EncodeChar(c: CodePoint): (r: bytes)
    ensures |r| == Width(c)
    ensures 1 < |r| ==> forall i :: 1 <= i < |r| ==> IsContinuation(r[i])
  {
    if c < 0x80 then [c]
    else if c < 0x800 then [0xC0 + c / 0x40, 0x80 + c % 0x40]
    else if c < 0x1_0000 then [0xE0 + c / 0x1000, 0x80 + (c / 0x40) % 0x40, 0x80 + c % 0x40]
    else [0xF0 + c / 0x4_0000, 0x80 + (c / 0x1000) % 0x40, 0x80 + (c / 0x40) % 0x40, 0x80 + c % 0x40]
  }

  predicate IsContinuation(b: byte) {
    0x80 <= b < 0xC0
  }

  /** `t.encode('utf8')`. */
  function Encode(t: Text): bytes
  {
    if t == [] then [] else EncodeChar(t[0]) + Encode(t[1..])
  }

  /** `len(t.encode('utf8'))`, the measure the truncator compares. */
  function ByteLength(t: Text): nat
  {
    |Encode(t)|
  }

  /** Decodes the code point at the head of `b`, with the number of octets it used;
      `None` when the head is not the complete encoding of a code point. */
  function DecodeChar(b: bytes): (r: Option<(CodePoint, nat)>)
    ensures r.Some? ==> 1 <= r.value.1 <= |b| && r.value.1 <= 4
  {
    if |b| == 0 then None
    else if b[0] < 0x80 then Some((b[0] as CodePoint, 1))
    else if 0xC0 <= b[0] < 0xE0 then
      if |b| < 2 || !IsContinuation(b[1]) then None
      else
        var c := (b[0] as int - 0xC0) * 0x40 + (b[1] as int - 0x80);
        if c < 0x80 then None else Some((c, 2))
    else if 0xE0 <= b[0] < 0xF0 then
      if |b| < 3 || !IsContinuation(b[1]) || !IsContinuation(b[2]) then None
      else
        var c := ((b[0] as int - 0xE0) * 0x40 + (b[1] as int - 0x80)) * 0x40 + (b[2] as int - 0x80);
        if c < 0x800 then None else Some((c, 3))
    else if 0xF0 <= b[0] < 0xF8 then
      if |b| < 4 || !IsContinuation(b[1]) || !IsContinuation(b[2]) || !IsContinuation(b[3]) then None
      else
        var c := (((b[0] as int - 0xF0) * 0x40 + (b[1] as int - 0x80)) * 0x40 + (b[2] as int - 0x80)) * 0x40 + (b[3] as int - 0x80);
        if c < 0x1_0000 || c > MAX_CODE_POINT then None else Some((c, 4))
    else None
  }

  /** Decodes a whole octet string; `None` unless it is a sequence of complete
      code-point encodings. */
  function Decode(b: bytes): Option<Text>
    decreases |b|
  {
    if b == [] then Some([])
    else match DecodeChar(b)
      case None => None
      case Some((c, n)) =>
        match Decode(b[n..])
        case None => None
        case Some(t) => Some([c] + t)
  }

  lemma DecodeEncodeChar(c: CodePoint, rest: bytes)
    ensures DecodeChar(EncodeChar(c) + rest) == Some((c, Width(c)))
  {
    var e := EncodeChar(c) + rest;
    if c < 0x80 {
    } else if c < 0x800 {
      assert c == (c / 0x40) * 0x40 + c % 0x40;
    } else if c < 0x1_0000 {
      var q := c / 0x40;
      assert c == q * 0x40 + c % 0x40;
      assert q == (q / 0x40) * 0x40 + q % 0x40;
      assert q / 0x40 == c / 0x1000;
    } else {
      var q1 := c / 0x40;
      var q2 := q1 / 0x40;
      assert c == q1 * 0x40 + c % 0x40;
      assert q1 == q2 * 0x40 + q1 % 0x40;
      assert q2 == (q2 / 0x40) * 0x40 + q2 % 0x40;
      assert q2 == c / 0x1000;
      assert q2 / 0x40 == c / 0x4_0000;
    }
  }

  /** Encoding distributes over concatenation. */
  lemma {:induction false} EncodeConcat(a: Text, b: Text)
    ensures Encode(a + b) == Encode(a) + Encode(b)
  {
    if a == [] {
      assert a + b == b;
    } else {
      assert (a + b)[0] == a[0];
      assert (a + b)[1..] == a[1..] + b;
      EncodeConcat(a[1..], b);
    }
  }

  /** The encoding of any text decodes back to that text: every encoding is
      complete-character UTF-8. */
  lemma {:induction false} DecodeEncode(t: Text)
    ensures Decode(Encode(t)) == Some(t)
  {
    if t != [] {
      var e := Encode(t);
      DecodeEncodeChar(t[0], Encode(t[1..]));
      assert e[Width(t[0])..] == Encode(t[1..]);
      DecodeEncode(t[1..]);
      assert [t[0]] + t[1..] == t;
    }
  }

  /** Dropping the last code point drops exactly that code point's octets from the
      end of the encoding: what remains is a prefix of the original encoding that
      ends on a character boundary. */
  lemma {:induction false} DropLastEncoding(t: Text)
    requires t != []
    ensures Encode(t) == Encode(t[..|t| - 1]) + EncodeChar(t[|t| - 1])
    ensures ByteLength(t[..|t| - 1]) == ByteLength(t) - Width(t[|t| - 1])
  {
    var n := |t| - 1;
    var init, last := t[..n], t[n];
    assert t == init + [last];
    EncodeConcat(init, [last]);
    EncodeSingle(last);
  }

  lemma EncodeSingle(c: CodePoint)
    ensures Encode([c]) == EncodeChar(c)
  {
    assert [c][1..] == [];
  }

  /** A text has UTF-8 length zero exactly when it is empty, and never fewer octets
      than code points. */
  lemma {:induction false} ByteLengthBounds(t: Text)
    ensures ByteLength(t) == 0 <==> t == []
    ensures |t| <= ByteLength(t) <= 4 * |t|
  {
    if t != [] {
      ByteLengthBounds(t[1..]);
    }
  }
}
